=== FILE: README.md ===
# Telco offer recommendation — decision logic in Dafny

The system recommends telco products (data, talk-time and combo packages) to
customers based on a behaviour record, and has two backends. The ML gateway
(`backend-2-ml/server.js`) runs an external scorer over a customer's feature
record. It then maps every scored offer label to one of the three catalog
products, writes a reason sentence for it, and posts it to the main backend.
The main backend (`backend-1`) validates the record and forwards it to the
gateway. It also serves the customer's profile and badge and gives
administrators paged listings, reports and guarded updates and deletes. The
profile page of the frontend shows avatar initials.

This project models the pure decisions inside those handlers:

| module | file | what it models |
|---|---|---|
| `Js` | js.dfy | `undefined` as `Option`, JSON scalars, truthiness, `>` against a number literal, the names every `{}` inherits |
| `Text` | text.dfy | ASCII `toLowerCase`/`toUpperCase`, `includes`, `join`, `split(' ')` and `split(sep)` (`SplitOn`) |
| `Db` | db.dfy | users, products and transactions as ordered rows, with the seeded catalog |
| `Records` | records.dfy | the required-key filter shared by both validators |
| `OfferMapping` | offer_mapping.dfy | `mapToProductId` |
| `Reasons` | reasons.dfy | `generateReason` |
| `Gateway` | gateway.dfy | `validateCustomerData`, `/api/predict`, `/api/predict-save` |
| `MlController` | ml_controller.dfy | `generateRecommendation`, `checkMLHealth`, and the two backends composed |
| `UserProfile` | user_controller.dfy | `getUserProfile` (badge, defaults) and `updateProfile` (email guard) |
| `AdminQueries` | admin_queries.dfy | paging, `totalPages`, the `$n` filter builder, the count query, chart period, recent limit |
| `AdminReport` | admin_report.dfy | `generateReport`'s totals and per-category stats |
| `AdminGuards` | admin_guards.dfy | `updateUser`, `deleteUser`, `updateProduct`, `deleteProduct` |
| `Initials` | initials.dfy | the profile page's `getInitials` |

External effects are oracle parameters:
- The Python scorer is a function `Record -> ScorerOutput`.
- The post to the main backend is a function `Poster = (nat, SaveRequest) -> PostResult`, indexed by loop iteration, so two identical requests can fare differently.
- The gateway call seen from the main backend is `MlRequest -> MlOutcome`.
- Every database read arrives as an input sequence of rows.

## Model

| member | source | states |
|---|---|---|
| Text.Lower | backend-2-ml/server.js:103 | lower-casing keeps the length and maps every character independently (ASCII) |
| Text.LowerIdempotent | backend-2-ml/server.js:103 | lower-casing twice equals lower-casing once |
| Text.Join | backend-2-ml/server.js:94 | no parts give "", one part gives itself, and the first part is a prefix of the result |
| Text.SplitJoinParts | backend-2-ml/server.js:94 | splitting a join at its separator gives back exactly the parts, when no part contains the separator's first character: the join loses nothing and invents nothing |
| Text.SplitSpaces | frontend/src/pages/Profile.jsx:32 | `split(' ')` yields at least one piece, and no piece contains a space |
| Text.SplitJoinRoundTrip | frontend/src/pages/Profile.jsx:32 | joining the pieces of `split(' ')` with a space gives back the original string |
| Records.MissingKeys | backend-2-ml/server.js:130 | a key is reported iff it is declared and absent, whatever value a present key has; the result keeps declared order (a subsequence of the key list) |
| Records.SubsequenceDeterminedByMembers | backend-2-ml/server.js:130 | over a duplicate-free key list, membership plus order fix the missing-key list uniquely |
| OfferMapping.MapToProductId | backend-2-ml/server.js:100-121 | the id is always 1, 2 or 3; a missing or empty label gives 1; a name in the exact table gives that table's id |
| OfferMapping.KeywordPriority | backend-2-ml/server.js:112-117 | for a non-empty label the result equals the keyword tiers alone: internet/data gives 1 before nelpon/call/voice gives 2 before combo gives 3, and no keyword gives 1 |
| OfferMapping.CaseInsensitive | backend-2-ml/server.js:103 | a label and its lower-case form map to the same id |
| OfferMapping.SeededNamesRoundTrip | backend-2-ml/server.js:105-112 | each seeded product's name, in any letter case, maps back to that product's id |
| OfferMapping.ResultIsSeeded | backend-2-ml/server.js:119-120 | every id the mapping returns is the id of a seeded product |
| OfferMapping.MapToProductIdAsWritten | backend-2-ml/server.js:112 | the lookup `mapping[lower]` can return an inherited `Object.prototype` member instead of an id |
| OfferMapping.AsWrittenReturnsNonId | backend-2-ml/server.js:112 | the label "Constructor" returns the inherited `constructor` member, not a product id |
| OfferMapping.AsWrittenAgreesElsewhere | backend-2-ml/server.js:106-112 | away from inherited property names, the as-written lookup and the own-key mapping agree |
| Reasons.FiredMembers | backend-2-ml/server.js:67-88 | each rule's fragment is present iff its condition holds; exactly one of postpaid/prepaid is present; the generic fragment never is |
| Reasons.FiredInOrder | backend-2-ml/server.js:67-88 | the collected fragments are non-empty, at most six, in the fixed order data, video, call, plan, spend, travel |
| Reasons.Select | backend-2-ml/server.js:63-92 | the fallback branch never fires: the output is the fired rules' fragments, each present iff its rule fires, in order |
| Reasons.Fragments | backend-2-ml/server.js:62-92 | the same, in terms of the record: data/video need a data or internet label, call needs nelpon/call/voice, each a strict `>` threshold |
| Reasons.WordingLength | backend-2-ml/server.js:68-91 | each rule fragment is 26 to 33 characters long; the generic sentence is 45 |
| Reasons.NoFullStop | backend-2-ml/server.js:67-88 | no rule fragment contains a full stop, so ". " marks exactly the boundaries between fragments |
| Reasons.JoinedIsNotGeneric | backend-2-ml/server.js:90-94 | joining one or more rule fragments with ". " never spells the generic sentence and is never empty |
| Reasons.GenerateReason | backend-2-ml/server.js:62-95 | the reason is non-empty, never the generic sentence, starts with the highest-priority fragment that fired, and splitting it at ". " gives back every fired fragment, in rule order |
| Gateway.ValidateCustomerData | backend-2-ml/server.js:123-140 | valid iff all ten keys are present; otherwise the message is the prefix followed by the missing keys joined by ", " |
| Gateway.Annotate | backend-2-ml/server.js:194-198 | one annotated offer per scored offer, in order, keeping label and score and adding the reason and a product id in 1..3 |
| Gateway.Predict | backend-2-ml/server.js:160-210 | rejected with the validation message iff validation fails; a valid record with no scorer output gives the "No output from Python" 500; predicted iff the record is valid and the ranking fully labelled; a valid record whose ranking has an unlabelled offer crashes the handler (no reply) rather than answering 500; entry i keeps offer i's label and score and carries that label's reason and product id (in 1..3) |
| Gateway.PredictAgreesWithSave | backend-2-ml/server.js:194-262 | for a labelled ranking, the product id and reason shown by /api/predict for offer i are the ones /api/predict-save posts for it, with the score divided by 100 |
| Gateway.SaveOne | backend-2-ml/server.js:251-268 | the entry keeps the offer; it is saved iff the label exists and that iteration's post succeeded; a missing label records the TypeError and a failed post records its own message |
| Gateway.SaveAll | backend-2-ml/server.js:250-269 | one entry per recommendation, in input order, with the matching offer; entry i is exactly `SaveOne` for offer i in iteration i, so it is saved iff offer i is labelled and the post made in iteration i succeeded, whatever earlier posts returned; saved iff it carries no error; an unlabelled offer carries the TypeError |
| Gateway.RequestFor | backend-2-ml/server.js:254-261 | the request body for one labelled offer: the caller's user id, that label's product id (in 1..3), the scorer's score divided by 100, and the reason generated from the label and the record, whether or not the record would pass validation |
| Gateway.Labelled | backend-2-ml/server.js:250-262 | the offers the loop gets as far as posting: all of them labelled, no more than the ranking, and the whole ranking when every offer is labelled |
| Gateway.LabelledMembers | backend-2-ml/server.js:250-262 | an offer is kept iff it is in the ranking and labelled, and the kept offers are a subsequence of the ranking, so their order is the scorer's |
| Gateway.LabelledInOrder | backend-2-ml/server.js:250-262 | filtering a concatenation is concatenating the filtered parts, so the loop posts for the offers in the order the scorer ranked them |
| Gateway.Posts | backend-2-ml/server.js:250-262 | one post per labelled offer and no other: the k-th post is the request for the k-th labelled offer of the ranking, for the caller's user id and a product id in 1..3 |
| Gateway.PostedScoreIsFraction | backend-2-ml/server.js:259 | the posted score times 100 is the scorer's score |
| Gateway.EveryLabelledOfferPosted | backend-2-ml/server.js:250-269 | with every offer labelled, the requests posted are exactly the per-offer requests, one per offer, in the scorer's order |
| Gateway.PredictSave | backend-2-ml/server.js:216-281 | rejected iff the user id is falsy or the record is absent, with the message "userId and customerData are required"; an accepted request completes iff the scorer printed a ranking, and its entries are then the save loop's over that ranking, one per ranked offer |
| MlController.MissingFields | backend-1/controllers/mlController.js:13-19 | a field is reported iff it is required and absent from the body, in declared order |
| MlController.ClassifyOutcome | backend-1/controllers/mlController.js:42-79 | a body with status 'success' gives 200 and any other body 500; ECONNREFUSED gives 503 "ML service is not available" before anything else; an error response gives its own status and its own message, or "ML service error" when that message is absent or empty; any other error gives 500 "Failed to generate recommendations" |
| MlController.GenerateRecommendation | backend-1/controllers/mlController.js:19-38 | a body missing a field gives 400 with the missing fields listed; otherwise the reply is the classified outcome of one gateway call with the user id and the body |
| MlController.RejectedBodyNeverCallsGateway | backend-1/controllers/mlController.js:21-31 | for a rejected body the reply is 400 and does not depend on the gateway at all |
| MlController.ConnectionRefusedWins | backend-1/controllers/mlController.js:59-65 | a refused connection gives 503 whatever response the error carries |
| MlController.ThroughGateway | backend-2-ml/server.js:216-281 | what the controller sees of /api/predict-save: it answers 200 iff the save loop completed, 400 iff the gateway rejected the request, and then the reply is exactly 400 "userId and customerData are required", and 500 iff the gateway crashed |
| MlController.ValidatorsAgree | backend-1/controllers/mlController.js:13-26 | the controller and the gateway accept exactly the same records and report the same message |
| MlController.CheckMlHealth | backend-1/controllers/mlController.js:83-98 | 200 iff the gateway answered, 503 iff it did not |
| MlController.CompleteRecordSucceedsEndToEnd | backend-1/controllers/mlController.js:31-47 | through the real gateway, a signed-in user's complete record with a ranked scorer output is answered 200, whatever each save returned |
| UserProfile.BadgeFor | backend-1/controllers/userController.js:21-23 | Gold iff spend > 150000; Silver iff 50000 < spend <= 150000; Bronze iff the spend is missing or <= 50000 |
| UserProfile.BadgeMonotone | backend-1/controllers/userController.js:21-23 | a higher spend never earns a lower badge |
| UserProfile.BadgeBoundaries | backend-1/controllers/userController.js:22-23 | exactly 150000 is Silver, exactly 50000 is Bronze, and no behaviour row is Bronze |
| UserProfile.OrZero | backend-1/controllers/userController.js:32-33 | a missing column reads 0; a present one reads its own value, and 0 stays 0 |
| UserProfile.GetUserProfile | backend-1/controllers/userController.js:9-38 | 404 iff the user is missing; otherwise the view carries the user's fields, the badge of the spend, the raw spend, and balance and quota with an or-zero default (a missing row, a null column or 0 gives 0) |
| UserProfile.NoBehaviorDefaults | backend-1/controllers/userController.js:17-36 | a user without a behaviour row sees zero balance and quota and the Bronze badge |
| UserProfile.FindByEmail | backend-1/controllers/userController.js:52 | none iff no row holds the email; otherwise the first row that holds it |
| UserProfile.UpdateProfile | backend-1/controllers/userController.js:47-60 | refused iff a truthy email's first holder has another id; otherwise only the signed-in row changes, and only in the fields supplied |
| UserProfile.GuardMeansAnotherHolder | backend-1/controllers/userController.js:51-56 | with unique emails, a truthy email is refused iff a user with another id holds it, so re-submitting one's own email is accepted |
| UserProfile.UpdateKeepsEmailsUnique | backend-1/controllers/userController.js:51-58 | an accepted update with a missing or truthy email keeps ids and emails unique |
| UserProfile.EmptyEmailSkipsGuard | backend-1/controllers/userController.js:51-58 | the empty email is falsy, bypasses the guard and is written, so two users can end up sharing it |
| AdminQueries.ParseOr | backend-1/controllers/adminController.js:187-188 | an unparsable or zero value gives the default; any other value is kept |
| AdminQueries.Paginate | backend-1/controllers/adminController.js:186-189 | page and limit default to 1 and 20, are never 0, and the offset is (page-1)*limit |
| AdminQueries.PagesAreAdjacent | backend-1/controllers/adminController.js:189 | page n+1 starts where page n ends |
| AdminQueries.EveryRowOnOnePage | backend-1/controllers/adminController.js:189 | with a positive limit every row position is shown by exactly one page, number k/limit+1 |
| AdminQueries.Ceil | backend-1/controllers/adminController.js:274 | the least integer not below its argument |
| AdminQueries.TotalPages | backend-1/controllers/adminController.js:274 | for a positive limit: pages*limit >= total, (pages-1)*limit < total when total > 0, and 0 pages for 0 rows; a negative limit gives at most 0 pages |
| AdminQueries.LastPageHoldsLastRow | backend-1/controllers/adminController.js:274 | the last counted page shows the last row, and the page after it shows none |
| AdminQueries.Step | backend-1/controllers/adminController.js:212-216 | a falsy value adds nothing; a truthy one appends its clause with the current `$n` and its param, then advances the counter |
| AdminQueries.StepBinds | backend-1/controllers/adminController.js:209-228 | a step keeps placeholders numbering params from $1 and each clause bound to its own filter's value |
| AdminQueries.BuildFilter | backend-1/controllers/adminController.js:209-228 | placeholders are $1..$k in order; param i is the value of clause i's filter; filters come in the order userId, startDate, endDate; a filter is present iff its value is truthy; the params are exactly the truthy values, in that order |
| AdminQueries.NoFiltersNoParams | backend-1/controllers/adminController.js:209-228 | absent or empty filters add no clause and no parameter |
| AdminQueries.ListingQuery | backend-1/controllers/adminController.js:209-259 | the first k params are exactly the truthy filter values in the order userId, startDate, endDate, bound to clauses numbered $1..$k; LIMIT and OFFSET use $k+1 and $k+2, and the params end with [limit, offset] |
| AdminQueries.CountingQuery | backend-1/controllers/adminController.js:237-256 | the count query's params are exactly the truthy filter values in filter order, bound to clauses numbered $1..$k, with a clause present iff its value is truthy |
| AdminQueries.CountQueryIsTwin | backend-1/controllers/adminController.js:237-259 | the count query has the same clauses, and its params are the listing's without the trailing limit and offset; the two blocks are equal in the source text and the model builds both from one builder, so this records the consequence rather than proving the copies equal |
| AdminQueries.PaginationFor | backend-1/controllers/adminController.js:266-275 | the reply carries the defaulted page and limit, the count, and a page count that covers it |
| AdminQueries.SelectPeriod | backend-1/controllers/adminController.js:56-100 | week iff 'week', year iff 'year', month for anything else including no period |
| AdminQueries.UnknownPeriodIsMonth | backend-1/controllers/adminController.js:89-100 | an unrecognised period runs exactly the 'month' query; the else branch repeats the month text, which the model maps to the same period by construction |
| AdminQueries.ChartsDiffer | backend-1/controllers/adminController.js:59-88 | the three periods select three different queries |
| AdminQueries.RecentLimit | backend-1/controllers/adminController.js:134-135 | the limit is never 0, defaults to 10, and otherwise keeps the given value |
| AdminReport.AddRow | backend-1/controllers/adminController.js:466-472 | one step adds exactly one to the count total and the row's amount to the revenue total, and keys exactly the previous categories plus the row's |
| AdminReport.AddRowPerCategory | backend-1/controllers/adminController.js:466-472 | a step adds the row to its own category's count and revenue and to no other |
| AdminReport.AddRowWellFormed | backend-1/controllers/adminController.js:466-472 | a step keeps the category keys distinct and every count positive |
| AdminReport.Aggregate | backend-1/controllers/adminController.js:466-473 | per-category counts sum to the row count; per-category revenues sum to the total revenue; a category is keyed iff some row has it |
| AdminReport.AggregatePerCategory | backend-1/controllers/adminController.js:466-473 | each category's count and revenue equal its rows' count and amount sum; keys are distinct |
| AdminReport.OrNull | backend-1/controllers/adminController.js:479-480 | a date is echoed iff it is truthy |
| AdminReport.GenerateReport | backend-1/controllers/adminController.js:461-483 | totalTransactions is the row count and totalRevenue the amount sum; the category stats add up to both; a category is listed iff some row has it |
| AdminReport.ReportFilter | backend-1/controllers/adminController.js:442-455 | the report filters by dates only: the params are exactly the truthy dates, start date before end date, each bound by its own filter with placeholders from $1 |
| AdminReport.AddRowAsWritten | backend-1/controllers/adminController.js:467-471 | the `{}` accumulator silently drops a row whose category is an inherited property name |
| AdminReport.AsWrittenLosesCategory | backend-1/controllers/adminController.js:466-473 | one sale in category "constructor" is in the total but under no category, so the counts do not add up |
| AdminReport.AsWrittenAgreesElsewhere | backend-1/controllers/adminController.js:466-473 | where no category is an inherited name, the as-written reducer equals the keyed one |
| AdminGuards.FindUser | backend-1/controllers/adminController.js:328 | none iff no row has the id; otherwise a row with that id, the only one when ids are unique |
| AdminGuards.UserTransactionCount | backend-1/controllers/adminController.js:339-344 | zero iff no transaction belongs to the user |
| AdminGuards.ProductTransactionCount | backend-1/controllers/adminController.js:403-408 | zero iff no transaction is for the product |
| AdminGuards.UpdateUser | backend-1/controllers/adminController.js:283-316 | 400 for any falsy field first; then 404 "User not found" iff the id is unknown; then 400 "Email already in use" iff another id holds the email; with all fields truthy the update succeeds iff both guards pass; on success only the target row changes, to exactly the three new fields |
| AdminGuards.FieldsCheckedFirst | backend-1/controllers/adminController.js:289-297 | a falsy field is refused with 400 even for an unknown id |
| AdminGuards.UpdateUserKeepsInvariants | backend-1/controllers/adminController.js:299-311 | an accepted update keeps ids and emails unique and every transaction's user present |
| AdminGuards.RemoveUser | backend-1/controllers/adminController.js:350 | exactly the rows with other ids remain, in their order |
| AdminGuards.DeleteUser | backend-1/controllers/adminController.js:323-352 | 404 "User not found" iff the id is unknown; an admin gives 400 "Cannot delete admin users"; a non-admin with transactions gives 400 with the advice to deactivate; deleted iff found, not an admin, and without transactions; only the users table changes |
| AdminGuards.AdminsNeverDeleted | backend-1/controllers/adminController.js:333-336 | with unique ids, an admin's row survives every accepted delete |
| AdminGuards.BuyersNeverDeleted | backend-1/controllers/adminController.js:338-348 | a user with a transaction is never deleted |
| AdminGuards.DeleteUserKeepsInvariants | backend-1/controllers/adminController.js:338-350 | after an accepted delete the id is gone, ids and emails stay unique, and every transaction's user and product still exist |
| AdminGuards.UpdateProduct | backend-1/controllers/adminController.js:359-385 | 400 for any falsy field, price or validity 0 included; then refused iff the id is unknown, with 404 "Product not found"; on success only the target row changes, to the five new fields |
| AdminGuards.ZeroPriceRefused | backend-1/controllers/adminController.js:365-367 | a price of 0 is refused as a missing field |
| AdminGuards.UpdateProductKeepsReferences | backend-1/controllers/adminController.js:375-380 | an accepted product update keeps every transaction's product present |
| AdminGuards.RemoveProduct | backend-1/controllers/adminController.js:414 | exactly the rows with other ids remain, in their order |
| AdminGuards.DeleteProduct | backend-1/controllers/adminController.js:392-416 | 404 "Product not found" iff the id is unknown; a product with transactions gives 400 with the advice to deactivate; deleted iff found and without transactions; only the products table changes |
| AdminGuards.DeleteProductKeepsReferences | backend-1/controllers/adminController.js:402-414 | after an accepted delete the id is gone and every transaction's product still exists |
| Initials.FirstChars | frontend/src/pages/Profile.jsx:33-34 | at most one character per word |
| Initials.WordStartsFrom | frontend/src/pages/Profile.jsx:31-34 | the reference scanner never collects a space and collects at most one character per input character |
| Initials.FirstCharsAreWordStarts | frontend/src/pages/Profile.jsx:31-34 | the first characters of the split pieces are exactly the characters that start a word, so empty pieces contribute nothing |
| Initials.GetInitials | frontend/src/pages/Profile.jsx:30-37 | the result has min(2, number of words) characters, each the upper-cased start of a word, in word order |
| Initials.InitialsHaveNoSpace | frontend/src/pages/Profile.jsx:31-36 | no output character is a space |
| Initials.LeadingSpaceIgnored | frontend/src/pages/Profile.jsx:32-34 | a leading space does not change the initials |
| Initials.Examples | frontend/src/pages/Profile.jsx:8 | the default username "John Doe" gives "JD"; the empty name gives "" |

## Left out

- HTTP, Express routing, axios and its 35 s and 5 s timeouts, PythonShell, the Python model, JWT authentication and the ORM are left out. Their results are parameters: the scorer, the post, the gateway call and query rows.
- `JSON.parse` of the scorer's output is assumed to give a well-formed ranking. Empty output is `NoOutput`. A ranking with missing or mistyped fields other than the label is not modelled.
- `/api/predict-save` with empty scorer output reaches `JSON.parse('')` inside an async callback, which throws outside any try. It is modelled as `SaveCrashed`. Seen from the main backend it is a dropped connection without a response, which the controller answers 500.
- Js.GreaterThan: a string field is compared as NaN. JavaScript would coerce a numeric string like "5" to 5, so a record carrying numbers as strings can fire fewer rules in the model than in the source.
- Text.Lower and Text.Upper: case mapping covers ASCII letters only. JavaScript's full Unicode mapping, where for example "ß" upper-cases to "SS", is not modelled.
- Floating point: amounts, scores and thresholds are exact reals. `score / 100` and the report sums carry no rounding. `parseFloat` and `parseInt` are given: their results are inputs, with an unparsable value as `None`.
- AdminReport.Aggregate: JavaScript lists integer-like object keys (a category named "10") before other keys. The model keeps every category in order of first appearance.
- SQL semantics are left out: the query text, date comparison, joins and `ORDER BY`. A query is its clauses and parameter array. The `SELECT ... LIMIT` results, `getDashboardStats`, `getTopProducts` and `getAllUsers` are pure SQL with no decision logic in JavaScript.
- AdminQueries.Paginate: a negative `page` or `limit` passes the `|| default` test and gives a negative offset or limit. The model computes these values, but the database's rejection of them is not modelled.
- UserProfile.UpdateKeepsEmailsUnique: the empty email and JSON `null` fields are excluded. Empty email is shown separately to bypass the guard (`EmptyEmailSkipsGuard`). Null is not modelled, because a body field is either absent or a string.
- UserProfile.GetUserProfile: `balance || 0` also maps NaN to 0; reals have no NaN.
- AdminGuards.UpdateProduct: `price` and `validity_days` are modelled as numbers, so only 0 or absence is falsy. A JSON string such as "0" is truthy in the source and passes the field check.
- Gateway.Annotate, Gateway.Predict, Gateway.RequestFor, Gateway.Posts, Gateway.SaveAll and Gateway.PredictSave use the corrected `OfferMapping.MapToProductId`. As written, a label that lower-cases to "constructor" or "__proto__" yields an inherited object member instead of a product id (see Findings), so their "product id in 1..3" holds for the corrected program only.
- AdminReport.GenerateReport uses the corrected `AdminReport.Aggregate`. As written, a category named after an `Object.prototype` member is counted in the totals but listed under no category (see Findings), so "the category stats add up to the totals" holds for the corrected program only.
- The admin handlers' catch-all 500 ("Server error") is not an `Outcome` case. It answers database and driver errors, for example a non-integer `:id` rejected by PostgreSQL. The model's ids are integers and its rows are inputs, so no such error arises.
- Initials.GetInitials: JavaScript's `n[0]` and `slice` count UTF-16 code units. A word starting outside the Basic Multilingual Plane (an emoji, say) gives half a character, a lone surrogate, in the source; the model's characters are whole code points, so it gives the whole character.
- Gateway.SaveAll: each post's result is a parameter indexed by loop iteration. The timing of the sequential awaits is not modelled.
- `validateModelFiles`, the health endpoint's uptime and timestamp, and server start-up are left out: they are file-system checks and clock reads.
- The main backend's transaction and recommendation controllers are left out: they are thin `create`/`findAll` wrappers. The frontend pages other than `getInitials`, and the frontend service modules, are left out too.
- The code has no purchase-driven behaviour update and no atomic replacement of a user's recommendations, so the model has neither. Offer mapping is the fixed three-entry table shown in the code, not a lookup in the live catalog.

## Findings

| source | as written | input that shows it | evidently intended | confidence | as-written member | corrected member |
|---|---|---|---|---|---|---|
| backend-2-ml/server.js:112 | `if (mapping[lower]) return mapping[lower]` reads the object literal with inherited properties | the offer label "Constructor" (lower-cased "constructor") returns the `Object` function instead of an id | only the three own entries are looked up, so every label maps to 1, 2 or 3 | not executed | OfferMapping.AsWrittenReturnsNonId | OfferMapping.MapToProductId |
| backend-1/controllers/adminController.js:466-473 | `if (!acc[row.category])` on an accumulator created by `{}` | one row in a category named "constructor" with amount 10: `totalTransactions` is 1 but no category is listed | every category gets its own entry, so per-category counts add up to the total | not executed | AdminReport.AsWrittenLosesCategory | AdminReport.Aggregate |

=== FILE: admin_guards.dfy ===
/**
 The admin write handlers over users and products: each runs a chain of
 guards (falsy field, unknown id, conflicting email, admin, existing
 transactions) and, when all pass, updates or deletes rows by id.
 */
module AdminGuards {
  import opened Js
  import Records
  import opened Db

  /** The reply of a write handler: the database after the write, or the
      status and message of the guard that refused it. */
  datatype Outcome = Done(db: Db) | Refused(status: int, message: string)

  const AllFieldsRequired := "All fields are required"
  const UserNotFound := "User not found"
  const EmailInUse := "Email already in use"
  const ProductNotFound := "Product not found"

  /** The lookup of a user row by id: the first matching row. */
  function FindUser(users: seq<User>, id: int): (r: Option<User>)
    ensures r.None? <==> !HasUser(users, id)
    ensures r.Some? ==> r.value.id == id && r.value in users
    ensures r.Some? && UniqueUserIds(users) ==> forall i :: 0 <= i < |users| && users[i].id == id ==> users[i] == r.value
  {
    if |users| == 0 then None
    else if users[0].id == id then Some(users[0])
    else
      var r := FindUser(users[1..], id);
      assert HasUser(users, id) <==> HasUser(users[1..], id) by {
        if HasUser(users, id) {
          var i :| 0 <= i < |users| && users[i].id == id;
          assert users[1..][i - 1] == users[i];
        }
        if HasUser(users[1..], id) {
          var i :| 0 <= i < |users[1..]| && users[1..][i].id == id;
          assert users[i + 1] == users[1..][i];
        }
      }
      r
  }

  /** How many transactions belong to a user. */
  function UserTransactionCount(txs: seq<Transaction>, id: int): (n: nat)
    ensures n == 0 <==> forall k :: 0 <= k < |txs| ==> txs[k].userId != id
  {
    if |txs| == 0 then 0
    else (if txs[0].userId == id then 1 else 0) + UserTransactionCount(txs[1..], id)
  }

  /** How many transactions are for a product. */
  function ProductTransactionCount(txs: seq<Transaction>, id: int): (n: nat)
    ensures n == 0 <==> forall k :: 0 <= k < |txs| ==> txs[k].productId != id
  {
    if |txs| == 0 then 0
    else (if txs[0].productId == id then 1 else 0) + ProductTransactionCount(txs[1..], id)
  }

  /** Some user with a different id already holds the email. */
  predicate EmailHeldByOther(users: seq<User>, email: string, id: int) {
    exists i :: 0 <= i < |users| && users[i].email == email && users[i].id != id
  }

  // ---------------------------------------------------------------------
  // updateUser

  function SetUser(u: User, id: int, username: string, email: string, role: string): User {
    if u.id == id then u.(username := username, email := email, role := role) else u
  }

  /** `updateUser`: 400 for any falsy field (before anything else), 404 for
      an unknown id, 400 for an email another id holds; otherwise every row
      with that id gets the three fields and nothing else changes. */
  function UpdateUser(db: Db, id: int, username: Option<string>, email: Option<string>, role: Option<string>)
    : (out: Outcome)
    ensures !TruthyString(username) || !TruthyString(email) || !TruthyString(role) ==>
      out == Refused(400, AllFieldsRequired)
    ensures TruthyString(username) && TruthyString(email) && TruthyString(role) ==>
      && (out.Refused? && out.status == 404 <==> !HasUser(db.users, id))
      && (out.Refused? && out.status == 400 <==> HasUser(db.users, id) && EmailHeldByOther(db.users, email.value, id))
      && (out.Done? <==> HasUser(db.users, id) && !EmailHeldByOther(db.users, email.value, id))
      && (!HasUser(db.users, id) ==> out == Refused(404, UserNotFound))
      && (HasUser(db.users, id) && EmailHeldByOther(db.users, email.value, id) ==> out == Refused(400, EmailInUse))
    ensures out.Done? ==>
      && HasUser(db.users, id)
      && out.db.products == db.products && out.db.transactions == db.transactions
      && |out.db.users| == |db.users|
      && forall i :: 0 <= i < |db.users| ==>
           && out.db.users[i].id == db.users[i].id
           && (db.users[i].id != id ==> out.db.users[i] == db.users[i])
           && (db.users[i].id == id ==>
                 out.db.users[i] == User(id, username.value, email.value, role.value))
  {
    if !TruthyString(username) || !TruthyString(email) || !TruthyString(role) then
      Refused(400, AllFieldsRequired)
    else if FindUser(db.users, id).None? then Refused(404, UserNotFound)
    else if EmailHeldByOther(db.users, email.value, id) then Refused(400, EmailInUse)
    else
      var users := seq(|db.users|, i requires 0 <= i < |db.users| =>
                       SetUser(db.users[i], id, username.value, email.value, role.value));
      Done(db.(users := users))
  }

  /** Fields are checked before the row is looked up: a falsy field is
      refused with 400 even for an id that does not exist. */
  lemma FieldsCheckedFirst(db: Db, id: int, email: Option<string>, role: Option<string>)
    requires !HasUser(db.users, id)
    ensures UpdateUser(db, id, Some(""), email, role).status == 400
  {
  }

  /** An accepted user update keeps ids and emails unique and every
      transaction's references intact. */
  lemma UpdateUserKeepsInvariants(db: Db, id: int, username: Option<string>, email: Option<string>, role: Option<string>)
    requires UniqueUserIds(db.users) && UniqueEmails(db.users) && ReferencesResolve(db)
    requires UpdateUser(db, id, username, email, role).Done?
    ensures var after := UpdateUser(db, id, username, email, role).db;
      UniqueUserIds(after.users) && UniqueEmails(after.users) && ReferencesResolve(after)
  {
    var after := UpdateUser(db, id, username, email, role).db;
    forall i, j | 0 <= i < j < |after.users|
      ensures after.users[i].email != after.users[j].email
    {
      if db.users[i].id == id {
        assert db.users[j].id != id;
      } else if db.users[j].id == id {
      }
    }
    forall k | 0 <= k < |after.transactions|
      ensures HasUser(after.users, after.transactions[k].userId)
    {
      var i :| 0 <= i < |db.users| && db.users[i].id == db.transactions[k].userId;
      assert after.users[i].id == db.users[i].id;
    }
  }

  // ---------------------------------------------------------------------
  // deleteUser

  /** Deleting a user by id: every row with that id goes, the
      rest keep their order. */
  function RemoveUser(users: seq<User>, id: int): (r: seq<User>)
    ensures forall u :: u in r <==> u in users && u.id != id
    ensures Records.IsSubsequence(r, users)
  {
    if |users| == 0 then []
    else if users[0].id == id then RemoveUser(users[1..], id)
    else [users[0]] + RemoveUser(users[1..], id)
  }

  const AdminUndeletable := "Cannot delete admin users"
  const UserHasTransactions := "Cannot delete user with existing transactions. Consider deactivating instead."
  const ProductHasTransactions := "Cannot delete product with existing transactions. Consider deactivating instead."

  /** `deleteUser`: 404 for an unknown id, 400 for an admin, 400 for a user
      with transactions; otherwise the user's row is removed. */
  function DeleteUser(db: Db, id: int): (out: Outcome)
    ensures out.Refused? && out.status == 404 <==> !HasUser(db.users, id)
    ensures !HasUser(db.users, id) ==> out == Refused(404, UserNotFound)
    ensures HasUser(db.users, id) && FindUser(db.users, id).value.role == "admin" ==>
      out == Refused(400, AdminUndeletable)
    ensures HasUser(db.users, id) && FindUser(db.users, id).value.role != "admin" &&
            UserTransactionCount(db.transactions, id) > 0 ==>
      out == Refused(400, UserHasTransactions)
    ensures out.Done? <==>
      && HasUser(db.users, id)
      && FindUser(db.users, id).value.role != "admin"
      && UserTransactionCount(db.transactions, id) == 0
    ensures out.Done? ==>
      && out.db.products == db.products && out.db.transactions == db.transactions
      && out.db.users == RemoveUser(db.users, id)
  {
    var found := FindUser(db.users, id);
    if found.None? then Refused(404, UserNotFound)
    else if found.value.role == "admin" then Refused(400, AdminUndeletable)
    else if UserTransactionCount(db.transactions, id) > 0 then Refused(400, UserHasTransactions)
    else Done(db.(users := RemoveUser(db.users, id)))
  }

  /** Admins are never deleted: with unique ids, an admin's row survives
      every delete request. */
  lemma AdminsNeverDeleted(db: Db, id: int, i: int)
    requires UniqueUserIds(db.users)
    requires 0 <= i < |db.users| && db.users[i].role == "admin"
    requires DeleteUser(db, id).Done?
    ensures db.users[i] in DeleteUser(db, id).db.users
  {
  }

  /** A user with transactions is never deleted. */
  lemma BuyersNeverDeleted(db: Db, id: int, k: int)
    requires 0 <= k < |db.transactions| && db.transactions[k].userId == id
    ensures DeleteUser(db, id).Refused?
  {
  }

  /** An accepted delete removes exactly the rows with that id and keeps
      the invariants, since no transaction pointed at the user. */
  lemma DeleteUserKeepsInvariants(db: Db, id: int)
    requires UniqueUserIds(db.users) && UniqueEmails(db.users) && ReferencesResolve(db)
    requires DeleteUser(db, id).Done?
    ensures var after := DeleteUser(db, id).db;
      && !HasUser(after.users, id)
      && UniqueUserIds(after.users) && UniqueEmails(after.users) && ReferencesResolve(after)
  {
    var after := DeleteUser(db, id).db;
    Records.SubsequenceDistinct(after.users, db.users);
    SubsequenceKeepsUnique(after.users, db.users);
    forall k | 0 <= k < |after.transactions|
      ensures HasUser(after.users, after.transactions[k].userId)
    {
      var i :| 0 <= i < |db.users| && db.users[i].id == db.transactions[k].userId;
      assert db.users[i] in after.users;
      var j :| 0 <= j < |after.users| && after.users[j] == db.users[i];
    }
  }

  /** Rows kept in order from a table with unique ids and emails keep them
      unique. */
  lemma {:induction false} SubsequenceKeepsUnique(a: seq<User>, b: seq<User>)
    requires Records.IsSubsequence(a, b) && UniqueUserIds(b) && UniqueEmails(b)
    ensures UniqueUserIds(a) && UniqueEmails(a)
    decreases |b|
  {
    if |a| > 0 && |b| > 0 {
      if a[0] == b[0] {
        SubsequenceKeepsUnique(a[1..], b[1..]);
        Records.SubsequenceMembers(a[1..], b[1..]);
        forall j | 0 < j < |a|
          ensures a[0].id != a[j].id && a[0].email != a[j].email
        {
          assert a[j] == a[1..][j - 1];
          assert a[j] in b[1..];
          var k :| 0 <= k < |b[1..]| && b[1..][k] == a[j];
          assert b[k + 1] == a[j];
        }
      } else {
        SubsequenceKeepsUnique(a, b[1..]);
      }
    }
  }

  // ---------------------------------------------------------------------
  // updateProduct and deleteProduct

  /** The body of an update: `price` and `validity_days` are falsy when
      absent or 0. */
  datatype ProductFields = ProductFields(
    name: Option<string>, category: Option<string>, price: Option<real>,
    description: Option<string>, validityDays: Option<int>)

  predicate AllTruthy(f: ProductFields) {
    && TruthyString(f.name) && TruthyString(f.category)
    && f.price.Some? && f.price.value != 0.0
    && TruthyString(f.description)
    && f.validityDays.Some? && f.validityDays.value != 0
  }

  function SetProduct(p: Product, id: int, f: ProductFields): Product
    requires AllTruthy(f)
  {
    if p.id == id then
      Product(id, f.name.value, f.category.value, f.price.value, f.description.value, f.validityDays.value)
    else p
  }

  /** `updateProduct`: 400 for any falsy field (a price or validity of 0
      included), 404 for an unknown id; otherwise the row gets all five
      fields and nothing else changes. */
  function UpdateProduct(db: Db, id: int, f: ProductFields): (out: Outcome)
    ensures !AllTruthy(f) ==> out == Refused(400, AllFieldsRequired)
    ensures AllTruthy(f) ==> (out.Refused? <==> !HasProduct(db.products, id))
    ensures AllTruthy(f) && !HasProduct(db.products, id) ==> out == Refused(404, ProductNotFound)
    ensures out.Refused? ==> out.status == 400 || out.status == 404
    ensures out.Done? ==>
      && out.db.users == db.users && out.db.transactions == db.transactions
      && |out.db.products| == |db.products|
      && forall i :: 0 <= i < |db.products| ==>
           && out.db.products[i].id == db.products[i].id
           && (db.products[i].id != id ==> out.db.products[i] == db.products[i])
           && (db.products[i].id == id ==>
                 && out.db.products[i].name == f.name.value
                 && out.db.products[i].category == f.category.value
                 && out.db.products[i].price == f.price.value
                 && out.db.products[i].description == f.description.value
                 && out.db.products[i].validityDays == f.validityDays.value)
  {
    if !AllTruthy(f) then Refused(400, AllFieldsRequired)
    else if !HasProduct(db.products, id) then Refused(404, ProductNotFound)
    else
      var products := seq(|db.products|, i requires 0 <= i < |db.products| && AllTruthy(f) =>
                          SetProduct(db.products[i], id, f));
      Done(db.(products := products))
  }

  /** A price of 0 is refused as a missing field. */
  lemma ZeroPriceRefused(db: Db, id: int, name: string, category: string, description: string, days: int)
    ensures UpdateProduct(db, id, ProductFields(Some(name), Some(category), Some(0.0), Some(description), Some(days)))
            == Refused(400, AllFieldsRequired)
  {
  }

  /** An accepted product update keeps every reference intact. */
  lemma UpdateProductKeepsReferences(db: Db, id: int, f: ProductFields)
    requires ReferencesResolve(db)
    requires UpdateProduct(db, id, f).Done?
    ensures ReferencesResolve(UpdateProduct(db, id, f).db)
  {
    var after := UpdateProduct(db, id, f).db;
    forall k | 0 <= k < |after.transactions|
      ensures HasProduct(after.products, after.transactions[k].productId)
    {
      var i :| 0 <= i < |db.products| && db.products[i].id == db.transactions[k].productId;
      assert after.products[i].id == db.products[i].id;
    }
  }

  function RemoveProduct(products: seq<Product>, id: int): (r: seq<Product>)
    ensures forall p :: p in r <==> p in products && p.id != id
    ensures Records.IsSubsequence(r, products)
  {
    if |products| == 0 then []
    else if products[0].id == id then RemoveProduct(products[1..], id)
    else [products[0]] + RemoveProduct(products[1..], id)
  }

  /** `deleteProduct`: 404 for an unknown id, 400 for a product with
      transactions; otherwise its row is removed. */
  function DeleteProduct(db: Db, id: int): (out: Outcome)
    ensures out.Refused? && out.status == 404 <==> !HasProduct(db.products, id)
    ensures !HasProduct(db.products, id) ==> out == Refused(404, ProductNotFound)
    ensures out.Done? <==> HasProduct(db.products, id) && ProductTransactionCount(db.transactions, id) == 0
    ensures HasProduct(db.products, id) && ProductTransactionCount(db.transactions, id) > 0 ==>
      out == Refused(400, ProductHasTransactions)
    ensures out.Done? ==>
      && out.db.users == db.users && out.db.transactions == db.transactions
      && out.db.products == RemoveProduct(db.products, id)
  {
    if !HasProduct(db.products, id) then Refused(404, ProductNotFound)
    else if ProductTransactionCount(db.transactions, id) > 0 then Refused(400, ProductHasTransactions)
    else Done(db.(products := RemoveProduct(db.products, id)))
  }

  /** A product with transactions is never deleted, and an accepted delete
      leaves every transaction's product in place. */
  lemma DeleteProductKeepsReferences(db: Db, id: int)
    requires ReferencesResolve(db)
    requires DeleteProduct(db, id).Done?
    ensures var after := DeleteProduct(db, id).db;
      !HasProduct(after.products, id) && ReferencesResolve(after)
  {
    var after := DeleteProduct(db, id).db;
    forall k | 0 <= k < |after.transactions|
      ensures HasProduct(after.products, after.transactions[k].productId)
    {
      var i :| 0 <= i < |db.products| && db.products[i].id == db.transactions[k].productId;
      assert db.products[i] in after.products;
      var j :| 0 <= j < |after.products| && after.products[j] == db.products[i];
    }
  }
}

=== FILE: admin_queries.dfy ===
/**
 The query-shaping logic of the admin transaction listing and sales chart:
 defaulting of `page`, `limit` and `period`, the offset and page count,
 and the positional-placeholder filter shared by the listing, its count
 query and the report. The SQL text itself is not modelled; a query is the
 list of its filter clauses with their placeholder numbers and its
 parameter array.
 */
module AdminQueries {
  import opened Js

  // ---------------------------------------------------------------------
  // Integer query parameters

  /** `parseInt(raw) || d`: `None` is an unparsable (NaN) value, and 0 is
      falsy too; any other parsed value is kept, negative ones included. */
  function ParseOr(raw: Option<int>, d: int): (n: int)
    ensures raw.None? ==> n == d
    ensures raw.Some? && raw.value == 0 ==> n == d
    ensures raw.Some? && raw.value != 0 ==> n == raw.value
  {
    if raw.Some? && raw.value != 0 then raw.value else d
  }

  /** A non-zero default makes the parsed value non-zero. */
  lemma ParseOrNonZero(raw: Option<int>, d: int)
    requires d != 0
    ensures ParseOr(raw, d) != 0
  {
  }

  const DefaultPage := 1
  const DefaultPageSize := 20
  const DefaultRecentLimit := 10

  datatype Page = Page(page: int, limit: int, offset: int)

  /** `getAllTransactionsAdmin`'s paging: page and limit default to 1 and 20,
      and the offset skips the rows of all earlier pages. */
  function Paginate(page: Option<int>, limit: Option<int>): (p: Page)
    ensures p.page == ParseOr(page, DefaultPage) && p.limit == ParseOr(limit, DefaultPageSize)
    ensures p.page != 0 && p.limit != 0
    ensures p.offset == (p.page - 1) * p.limit
  {
    var pageNum := ParseOr(page, DefaultPage);
    var limitNum := ParseOr(limit, DefaultPageSize);
    Page(pageNum, limitNum, (pageNum - 1) * limitNum)
  }

  /** Consecutive pages are adjacent windows: page `n + 1` starts where
      page `n` ends. */
  lemma PagesAreAdjacent(n: int, size: Option<int>)
    requires n >= 1
    ensures Paginate(Some(n + 1), size).offset == Paginate(Some(n), size).offset + Paginate(Some(n), size).limit
  {
  }

  /** With a positive page size, every row position `k` is shown by exactly
      one page, the one numbered `k / limit + 1`. */
  lemma EveryRowOnOnePage(k: nat, size: Option<int>)
    requires Paginate(None, size).limit > 0
    ensures var n := k / Paginate(None, size).limit + 1;
      && n >= 1
      && Paginate(Some(n), size).offset <= k < Paginate(Some(n), size).offset + Paginate(Some(n), size).limit
    ensures forall n :: n >= 1 && Paginate(Some(n), size).offset <= k < Paginate(Some(n), size).offset + Paginate(Some(n), size).limit
                        ==> n == k / Paginate(None, size).limit + 1
  {
    var limit := Paginate(None, size).limit;
    var q := k / limit;
    DivBounds(k, limit);
    forall n | n >= 1 && Paginate(Some(n), size).offset <= k < Paginate(Some(n), size).offset + Paginate(Some(n), size).limit
      ensures n == q + 1
    {
      WindowUnique(n - 1, q, k, limit);
    }
  }

  lemma DivBounds(k: nat, limit: int)
    requires limit > 0
    ensures k / limit >= 0
    ensures (k / limit) * limit <= k < (k / limit) * limit + limit
  {
  }

  /** Two windows `[a*limit, a*limit + limit)` that share a point are the
      same window. */
  lemma WindowUnique(a: int, b: int, k: int, limit: int)
    requires limit > 0
    requires a * limit <= k < a * limit + limit
    requires b * limit <= k < b * limit + limit
    ensures a == b
  {
    if a < b {
      MulMonotone(a + 1, b, limit);
    } else if a > b {
      MulMonotone(b + 1, a, limit);
    }
  }

  lemma MulMonotone(a: int, b: int, c: int)
    requires a <= b && c > 0
    ensures a * c <= b * c
  {
  }

  // ---------------------------------------------------------------------
  // Page count

  /** `Math.ceil(x)`: the least integer not below `x`. */
  function Ceil(x: real): (c: int)
    ensures c as real >= x
    ensures (c - 1) as real < x
  {
    if x.Floor as real == x then x.Floor else x.Floor + 1
  }

  /** `Math.ceil(total / limit)`; the limit is never 0 after defaulting. */
  function TotalPages(total: nat, limit: int): (pages: int)
    requires limit != 0
    ensures limit > 0 ==> pages >= 0 && pages * limit >= total
    ensures limit > 0 && total > 0 ==> (pages - 1) * limit < total
    ensures limit > 0 && total == 0 ==> pages == 0
    ensures limit < 0 ==> pages <= 0
  {
    var pages := Ceil(total as real / limit as real);
    CeilScaled(total, limit, pages);
    pages
  }

  lemma CeilScaled(total: nat, limit: int, pages: int)
    requires limit != 0
    requires pages as real >= total as real / limit as real
    requires (pages - 1) as real < total as real / limit as real
    ensures limit > 0 ==> pages >= 0 && pages * limit >= total
    ensures limit > 0 && total > 0 ==> (pages - 1) * limit < total
    ensures limit > 0 && total == 0 ==> pages == 0
    ensures limit < 0 ==> pages <= 0
  {
    var q := total as real / limit as real;
    if limit < 0 {
      DivSign(total as real, limit as real);
    } else {
      DivSign(total as real, limit as real);
      RealScale(pages as real, q, limit as real);
      RealScaleStrict((pages - 1) as real, q, limit as real);
      CastMul(pages, limit);
      CastMul(pages - 1, limit);
    }
  }

  lemma DivSign(t: real, l: real)
    requires t >= 0.0 && l != 0.0
    ensures (t / l) * l == t
    ensures l < 0.0 ==> t / l <= 0.0
    ensures l > 0.0 ==> t / l >= 0.0
  {
  }

  lemma RealScale(a: real, b: real, c: real)
    requires a >= b && c > 0.0
    ensures a * c >= b * c
  {
  }

  lemma RealScaleStrict(a: real, b: real, c: real)
    requires a < b && c > 0.0
    ensures a * c < b * c
  {
  }

  lemma CastMul(a: int, b: int)
    ensures (a * b) as real == a as real * b as real
  {
  }

  /** The last page holds the last row: with `total > 0` rows, the page
      numbered `TotalPages` starts before row `total - 1`, and no page after
      it shows any row. */
  lemma LastPageHoldsLastRow(total: nat, size: Option<int>)
    requires total > 0 && Paginate(None, size).limit > 0
    ensures var limit := Paginate(None, size).limit;
      var last := TotalPages(total, limit);
      && last >= 1
      && Paginate(Some(last), size).offset <= total - 1 < Paginate(Some(last), size).offset + limit
      && Paginate(Some(last + 1), size).offset >= total
  {
    var limit := Paginate(None, size).limit;
    var last := TotalPages(total, limit);
    assert last >= 1;
  }

  // ---------------------------------------------------------------------
  // The positional filter

  /** The three optional filters, in the order they are tested. */
  datatype Filter = UserIs | StartsFrom | EndsBy

  function FilterRank(f: Filter): nat {
    match f
    case UserIs => 0
    case StartsFrom => 1
    case EndsBy => 2
  }

  /** One ` AND ... $n` clause: the filter and its placeholder number. */
  datatype Clause = Clause(filter: Filter, placeholder: int)

  /** A bound parameter: a query-string value or a number. */
  datatype Param = TextParam(s: string) | NumberParam(n: int)

  /** The builder's state: clauses so far, the `params` array and the
      `paramIndex` counter. */
  datatype FilterState = FilterState(clauses: seq<Clause>, params: seq<Param>, next: int)

  const Start := FilterState([], [], 1)

  /** One optional filter: a truthy value appends its clause with the
      current placeholder number, pushes the value and advances the counter. */
  function Step(st: FilterState, value: Option<string>, f: Filter): (r: FilterState)
    ensures !TruthyString(value) ==> r == st
    ensures TruthyString(value) ==>
      |r.clauses| == |st.clauses| + 1 && r.clauses[..|st.clauses|] == st.clauses &&
      r.clauses[|st.clauses|] == Clause(f, st.next) &&
      r.params == st.params + [TextParam(value.value)] && r.next == st.next + 1
  {
    if TruthyString(value) then
      FilterState(st.clauses + [Clause(f, st.next)], st.params + [TextParam(value.value)], st.next + 1)
    else st
  }

  /** The value a filter reads from the query string. */
  function FilterValue(f: Filter, userId: Option<string>, startDate: Option<string>, endDate: Option<string>)
    : Option<string>
  {
    match f
    case UserIs => userId
    case StartsFrom => startDate
    case EndsBy => endDate
  }

  /** The builder's invariant: placeholders number the params `$1..$k` and
      each clause binds the value of its own filter, in filter order. */
  ghost predicate Binds(st: FilterState, userId: Option<string>, startDate: Option<string>, endDate: Option<string>) {
    && |st.clauses| == |st.params|
    && st.next == |st.params| + 1
    && (forall i :: 0 <= i < |st.clauses| ==> st.clauses[i].placeholder == i + 1)
    && (forall i :: 0 <= i < |st.clauses| ==>
          TruthyString(FilterValue(st.clauses[i].filter, userId, startDate, endDate)) &&
          st.params[i] == TextParam(FilterValue(st.clauses[i].filter, userId, startDate, endDate).value))
    && (forall i, j :: 0 <= i < j < |st.clauses| ==> FilterRank(st.clauses[i].filter) < FilterRank(st.clauses[j].filter))
  }

  /** A step for a filter ranked above every clause so far keeps the
      invariant. */
  lemma StepBinds(st: FilterState, f: Filter, userId: Option<string>, startDate: Option<string>, endDate: Option<string>)
    requires Binds(st, userId, startDate, endDate)
    requires forall i :: 0 <= i < |st.clauses| ==> FilterRank(st.clauses[i].filter) < FilterRank(f)
    ensures Binds(Step(st, FilterValue(f, userId, startDate, endDate), f), userId, startDate, endDate)
    ensures forall i :: 0 <= i < |Step(st, FilterValue(f, userId, startDate, endDate), f).clauses| ==>
      FilterRank(Step(st, FilterValue(f, userId, startDate, endDate), f).clauses[i].filter) <= FilterRank(f)
  {
    var r := Step(st, FilterValue(f, userId, startDate, endDate), f);
    if TruthyString(FilterValue(f, userId, startDate, endDate)) {
      forall i | 0 <= i < |st.clauses|
        ensures r.clauses[i] == st.clauses[i] && r.params[i] == st.params[i]
      {
        assert r.clauses[..|st.clauses|][i] == st.clauses[i];
      }
    }
  }

  /** 1 for a value the builder binds, 0 for one it skips. */
  function Supplied(value: Option<string>): nat {
    if TruthyString(value) then 1 else 0
  }

  /** The params a value contributes: itself when truthy, nothing otherwise. */
  function Bound(value: Option<string>): (ps: seq<Param>)
    ensures |ps| == Supplied(value)
  {
    if TruthyString(value) then [TextParam(value.value)] else []
  }

  /** The clauses and params for the supplied filters, tested in the order
      userId, startDate, endDate. */
  function BuildFilter(userId: Option<string>, startDate: Option<string>, endDate: Option<string>)
    : (st: FilterState)
    ensures Binds(st, userId, startDate, endDate)
    ensures |st.params| == Supplied(userId) + Supplied(startDate) + Supplied(endDate)
    ensures st.params == Bound(userId) + Bound(startDate) + Bound(endDate)
    ensures forall f: Filter :: TruthyString(FilterValue(f, userId, startDate, endDate)) <==>
      exists i :: 0 <= i < |st.clauses| && st.clauses[i].filter == f
  {
    var s1 := Step(Start, userId, UserIs);
    var s2 := Step(s1, startDate, StartsFrom);
    var s3 := Step(s2, endDate, EndsBy);
    assert s1.params == Bound(userId);
    assert s2.params == s1.params + Bound(startDate);
    assert s3.params == s2.params + Bound(endDate);
    StepBinds(Start, UserIs, userId, startDate, endDate);
    StepBinds(s1, StartsFrom, userId, startDate, endDate);
    StepBinds(s2, EndsBy, userId, startDate, endDate);
    ClausesPresent(userId, startDate, endDate, s1, s2, s3);
    s3
  }

  lemma ClausesPresent(userId: Option<string>, startDate: Option<string>, endDate: Option<string>,
                       s1: FilterState, s2: FilterState, s3: FilterState)
    requires s1 == Step(Start, userId, UserIs)
    requires s2 == Step(s1, startDate, StartsFrom)
    requires s3 == Step(s2, endDate, EndsBy)
    requires Binds(s3, userId, startDate, endDate)
    ensures forall f: Filter :: TruthyString(FilterValue(f, userId, startDate, endDate)) <==>
      exists i :: 0 <= i < |s3.clauses| && s3.clauses[i].filter == f
  {
    assert |s1.clauses| <= 1 && |s2.clauses| <= |s1.clauses| + 1;
    forall f: Filter | TruthyString(FilterValue(f, userId, startDate, endDate))
      ensures exists i :: 0 <= i < |s3.clauses| && s3.clauses[i].filter == f
    {
      match f
      case UserIs =>
        assert s3.clauses[..|s1.clauses|] == s1.clauses by {
          assert s2.clauses[..|s1.clauses|] == s1.clauses;
        }
        assert s3.clauses[0] == s1.clauses[0];
      case StartsFrom =>
        assert s3.clauses[|s1.clauses|] == s2.clauses[|s1.clauses|];
      case EndsBy =>
        assert s3.clauses[|s2.clauses|].filter == EndsBy;
    }
  }

  /** Filters that are absent or empty add nothing: with none supplied the
      query has no clause and no parameter. */
  lemma NoFiltersNoParams()
    ensures BuildFilter(None, Some(""), None) == FilterState([], [], 1)
  {
  }

  // ---------------------------------------------------------------------
  // The listing and its count query

  /** The listing query: filter clauses, then `LIMIT $k+1 OFFSET $k+2`. */
  datatype ListQuery = ListQuery(clauses: seq<Clause>, limitPlaceholder: int, offsetPlaceholder: int, params: seq<Param>)

  /** The count query: the same filter clauses, no paging. */
  datatype CountQuery = CountQuery(clauses: seq<Clause>, params: seq<Param>)

  function ListingQuery(userId: Option<string>, startDate: Option<string>, endDate: Option<string>, page: Page)
    : (q: ListQuery)
    ensures var k := Supplied(userId) + Supplied(startDate) + Supplied(endDate);
      && |q.clauses| == k && |q.params| == k + 2
      && q.params[..k] == Bound(userId) + Bound(startDate) + Bound(endDate)
      && Binds(FilterState(q.clauses, q.params[..k], k + 1), userId, startDate, endDate)
      && (forall f: Filter :: TruthyString(FilterValue(f, userId, startDate, endDate)) <==>
            exists i :: 0 <= i < k && q.clauses[i].filter == f)
      && q.limitPlaceholder == k + 1 && q.offsetPlaceholder == k + 2
      && q.params[k] == NumberParam(page.limit) && q.params[k + 1] == NumberParam(page.offset)
  {
    var st := BuildFilter(userId, startDate, endDate);
    var q := ListQuery(st.clauses, st.next, st.next + 1, st.params + [NumberParam(page.limit), NumberParam(page.offset)]);
    assert q.params[..|st.params|] == st.params;
    assert FilterState(q.clauses, q.params[..|st.params|], |st.params| + 1) == st;
    q
  }

  /** The count query is assembled by a second, separate run of the same
      three tests with its own counter. */
  function CountingQuery(userId: Option<string>, startDate: Option<string>, endDate: Option<string>)
    : (q: CountQuery)
    ensures |q.params| == Supplied(userId) + Supplied(startDate) + Supplied(endDate)
    ensures q.params == Bound(userId) + Bound(startDate) + Bound(endDate)
    ensures Binds(FilterState(q.clauses, q.params, |q.params| + 1), userId, startDate, endDate)
    ensures forall f: Filter :: TruthyString(FilterValue(f, userId, startDate, endDate)) <==>
      exists i :: 0 <= i < |q.clauses| && q.clauses[i].filter == f
  {
    var st := BuildFilter(userId, startDate, endDate);
    assert FilterState(st.clauses, st.params, |st.params| + 1) == st;
    CountQuery(st.clauses, st.params)
  }

  /** The two queries filter alike: the count query's params are the
      listing's without the trailing limit and offset, and the limit and
      offset placeholders number the last two params. The source writes the
      count query's three tests out a second time; that they are the same
      tests is read off the text (both are built here by `BuildFilter`), so
      this lemma records the consequence rather than proving the copies
      equal. */
  lemma CountQueryIsTwin(userId: Option<string>, startDate: Option<string>, endDate: Option<string>, page: Page)
    ensures var list := ListingQuery(userId, startDate, endDate, page);
      var count := CountingQuery(userId, startDate, endDate);
      && count.clauses == list.clauses
      && count.params == list.params[..|list.params| - 2]
      && list.offsetPlaceholder == |list.params|
      && list.limitPlaceholder == |list.params| - 1
      && list.params[|list.params| - 2..] == [NumberParam(page.limit), NumberParam(page.offset)]
  {
    var st := BuildFilter(userId, startDate, endDate);
    var list := ListingQuery(userId, startDate, endDate, page);
    assert list.params[..|list.params| - 2] == st.params;
  }

  datatype Pagination = Pagination(page: int, limit: int, total: nat, totalPages: int)

  /** The `pagination` block of the listing reply, for the count the count
      query returned. */
  function PaginationFor(page: Option<int>, limit: Option<int>, total: nat): (p: Pagination)
    ensures p.page == Paginate(page, limit).page && p.limit == Paginate(page, limit).limit
    ensures p.total == total
    ensures p.limit > 0 ==> p.totalPages * p.limit >= total && (total > 0 ==> (p.totalPages - 1) * p.limit < total)
  {
    var pg := Paginate(page, limit);
    Pagination(pg.page, pg.limit, total, TotalPages(total, pg.limit))
  }

  // ---------------------------------------------------------------------
  // Sales chart and recent transactions

  datatype Period = Week | MonthPeriod | Year

  /** `getSalesChart`'s period: 'week' and 'year' are recognised; anything
      else, and no period at all, selects the monthly chart. */
  function SelectPeriod(period: Option<string>): (p: Period)
    ensures p == Week <==> period == Some("week")
    ensures p == Year <==> period == Some("year")
    ensures p == MonthPeriod <==> period != Some("week") && period != Some("year")
  {
    if period == Some("month") then MonthPeriod
    else if period == Some("week") then Week
    else if period == Some("year") then Year
    else MonthPeriod
  }

  /** The chart query a period selects: the truncation unit, how many units
      back it looks, and the label format. */
  datatype ChartQuery = ChartQuery(unit: string, lookback: nat, labelFormat: string)

  function ChartFor(p: Period): (q: ChartQuery)
    ensures q.lookback > 0
  {
    match p
    case MonthPeriod => ChartQuery("month", 6, "Mon YYYY")
    case Week => ChartQuery("week", 8, "DD Mon")
    case Year => ChartQuery("year", 3, "YYYY")
  }

  /** An unrecognised period runs the very query 'month' runs. The source's
      else branch repeats the month query's text; the model reads that off
      and maps both to `MonthPeriod`, so this holds by construction. */
  lemma UnknownPeriodIsMonth(period: Option<string>)
    requires period != Some("week") && period != Some("year")
    ensures ChartFor(SelectPeriod(period)) == ChartFor(SelectPeriod(Some("month")))
    ensures ChartFor(SelectPeriod(period)) == ChartQuery("month", 6, "Mon YYYY")
  {
  }

  /** The three charts are distinct queries. */
  lemma ChartsDiffer(p: Period, q: Period)
    requires p != q
    ensures ChartFor(p) != ChartFor(q)
  {
  }

  /** `getRecentTransactions`' row limit: `parseInt(limit) || 10`. */
  function RecentLimit(limit: Option<int>): (n: int)
    ensures n != 0
    ensures limit.Some? && limit.value != 0 ==> n == limit.value
    ensures limit.None? || limit.value == 0 ==> n == DefaultRecentLimit
  {
    ParseOr(limit, DefaultRecentLimit)
  }
}

=== FILE: admin_report.dfy ===
/**
 The admin sales report: its date filter and the summary computed over the
 rows the query returns — total revenue, row count and per-category count
 and revenue, with categories in order of first appearance.
 */
module AdminReport {
  import opened Js
  import AdminQueries

  /** The two report columns the summary reads; `amount` is already parsed. */
  datatype Row = Row(category: string, amount: real)

  datatype CategoryStat = CategoryStat(category: string, count: nat, revenue: real)

  // ---------------------------------------------------------------------
  // Reference definitions over the rows

  function TotalRevenue(rows: seq<Row>): real {
    if |rows| == 0 then 0.0 else TotalRevenue(rows[..|rows| - 1]) + rows[|rows| - 1].amount
  }

  function CountIn(rows: seq<Row>, c: string): nat {
    if |rows| == 0 then 0
    else CountIn(rows[..|rows| - 1], c) + (if rows[|rows| - 1].category == c then 1 else 0)
  }

  function RevenueIn(rows: seq<Row>, c: string): real {
    if |rows| == 0 then 0.0
    else RevenueIn(rows[..|rows| - 1], c) + (if rows[|rows| - 1].category == c then rows[|rows| - 1].amount else 0.0)
  }

  predicate HasCategory(rows: seq<Row>, c: string) {
    exists i :: 0 <= i < |rows| && rows[i].category == c
  }

  // ---------------------------------------------------------------------
  // Sums over the stats

  function SumCounts(stats: seq<CategoryStat>): nat {
    if |stats| == 0 then 0 else stats[0].count + SumCounts(stats[1..])
  }

  function SumRevenue(stats: seq<CategoryStat>): real {
    if |stats| == 0 then 0.0 else stats[0].revenue + SumRevenue(stats[1..])
  }

  /** The count and revenue recorded for a category, zero when absent. */
  function CountOf(stats: seq<CategoryStat>, c: string): nat {
    if |stats| == 0 then 0 else if stats[0].category == c then stats[0].count else CountOf(stats[1..], c)
  }

  function RevenueOf(stats: seq<CategoryStat>, c: string): real {
    if |stats| == 0 then 0.0 else if stats[0].category == c then stats[0].revenue else RevenueOf(stats[1..], c)
  }

  predicate Keyed(stats: seq<CategoryStat>, c: string) {
    exists i :: 0 <= i < |stats| && stats[i].category == c
  }

  ghost predicate DistinctKeys(stats: seq<CategoryStat>) {
    forall i, j :: 0 <= i < j < |stats| ==> stats[i].category != stats[j].category
  }

  ghost predicate PositiveCounts(stats: seq<CategoryStat>) {
    forall i :: 0 <= i < |stats| ==> stats[i].count >= 1
  }

  // ---------------------------------------------------------------------
  // The reducer

  /** One reducer step on a keyed accumulator: create `{count: 0,
      revenue: 0}` for a new category, then count the row and add its amount. */
  function AddRow(stats: seq<CategoryStat>, row: Row): (r: seq<CategoryStat>)
    ensures SumCounts(r) == SumCounts(stats) + 1
    ensures SumRevenue(r) == SumRevenue(stats) + row.amount
    ensures forall c :: Keyed(r, c) <==> Keyed(stats, c) || c == row.category
  {
    if |stats| == 0 then [CategoryStat(row.category, 1, row.amount)]
    else if stats[0].category == row.category then
      [stats[0].(count := stats[0].count + 1, revenue := stats[0].revenue + row.amount)] + stats[1..]
    else
      var rest := AddRow(stats[1..], row);
      KeyedCons(stats[0], stats[1..]);
      KeyedCons(stats[0], rest);
      [stats[0]] + rest
  }

  lemma KeyedCons(s: CategoryStat, stats: seq<CategoryStat>)
    ensures forall c :: Keyed([s] + stats, c) <==> s.category == c || Keyed(stats, c)
  {
    forall c | Keyed(stats, c)
      ensures Keyed([s] + stats, c)
    {
      var i :| 0 <= i < |stats| && stats[i].category == c;
      assert ([s] + stats)[i + 1] == stats[i];
    }
    forall c | Keyed([s] + stats, c) && s.category != c
      ensures Keyed(stats, c)
    {
      var i :| 0 <= i < |[s] + stats| && ([s] + stats)[i].category == c;
      assert stats[i - 1] == ([s] + stats)[i];
    }
    assert ([s] + stats)[0] == s;
  }

  /** A step adds the row to its own category's figures and to no other. */
  lemma {:induction false} AddRowPerCategory(stats: seq<CategoryStat>, row: Row, c: string)
    ensures CountOf(AddRow(stats, row), c) == CountOf(stats, c) + (if c == row.category then 1 else 0)
    ensures RevenueOf(AddRow(stats, row), c) == RevenueOf(stats, c) + (if c == row.category then row.amount else 0.0)
  {
    if |stats| > 0 && stats[0].category != row.category {
      AddRowPerCategory(stats[1..], row, c);
      assert AddRow(stats, row) == [stats[0]] + AddRow(stats[1..], row);
      assert ([stats[0]] + AddRow(stats[1..], row))[1..] == AddRow(stats[1..], row);
    } else if |stats| > 0 {
      assert AddRow(stats, row)[1..] == stats[1..];
    }
  }

  /** A step keeps the keys distinct and every count positive. */
  lemma {:induction false} AddRowWellFormed(stats: seq<CategoryStat>, row: Row)
    requires DistinctKeys(stats) && PositiveCounts(stats)
    ensures DistinctKeys(AddRow(stats, row)) && PositiveCounts(AddRow(stats, row))
  {
    if |stats| > 0 && stats[0].category != row.category {
      var rest := AddRow(stats[1..], row);
      AddRowWellFormed(stats[1..], row);
      var r := AddRow(stats, row);
      assert r == [stats[0]] + rest;
      forall j | 0 < j < |r|
        ensures r[0].category != r[j].category
      {
        assert r[j] == rest[j - 1];
        assert Keyed(rest, r[j].category);
        if r[j].category != row.category {
          assert Keyed(stats[1..], r[j].category);
          var k :| 0 <= k < |stats[1..]| && stats[1..][k].category == r[j].category;
          assert stats[k + 1].category == r[j].category;
        }
      }
    } else if |stats| > 0 {
      var r := AddRow(stats, row);
      forall i, j | 0 <= i < j < |r|
        ensures r[i].category != r[j].category
      {
        assert r[j] == stats[j];
        if i > 0 {
          assert r[i] == stats[i];
        }
      }
    }
  }

  /** `rows.reduce(step, {})`, folding from the first row. */
  function Aggregate(rows: seq<Row>): (stats: seq<CategoryStat>)
    ensures SumCounts(stats) == |rows|
    ensures SumRevenue(stats) == TotalRevenue(rows)
    ensures forall c :: Keyed(stats, c) <==> HasCategory(rows, c)
  {
    if |rows| == 0 then []
    else
      var init := rows[..|rows| - 1];
      var last := rows[|rows| - 1];
      var stats := AddRow(Aggregate(init), last);
      assert forall c :: HasCategory(rows, c) <==> HasCategory(init, c) || c == last.category by {
        forall c | HasCategory(rows, c) && c != last.category
          ensures HasCategory(init, c)
        {
          var i :| 0 <= i < |rows| && rows[i].category == c;
          assert init[i] == rows[i];
        }
        forall c | HasCategory(init, c)
          ensures HasCategory(rows, c)
        {
          var i :| 0 <= i < |init| && init[i].category == c;
          assert rows[i] == init[i];
        }
      }
      stats
  }

  /** Each category's figures are that category's row count and amount sum;
      the keys are distinct and every listed count is at least 1. */
  lemma {:induction false} AggregatePerCategory(rows: seq<Row>, c: string)
    ensures CountOf(Aggregate(rows), c) == CountIn(rows, c)
    ensures RevenueOf(Aggregate(rows), c) == RevenueIn(rows, c)
    ensures DistinctKeys(Aggregate(rows)) && PositiveCounts(Aggregate(rows))
  {
    if |rows| > 0 {
      var init := rows[..|rows| - 1];
      AggregatePerCategory(init, c);
      AddRowPerCategory(Aggregate(init), rows[|rows| - 1], c);
      AddRowWellFormed(Aggregate(init), rows[|rows| - 1]);
    }
  }

  datatype Summary = Summary(
    totalRevenue: real, totalTransactions: nat,
    startDate: Option<string>, endDate: Option<string>,
    categoryStats: seq<CategoryStat>)

  /** `startDate || null`. */
  function OrNull(s: Option<string>): (r: Option<string>)
    ensures r.Some? <==> TruthyString(s)
    ensures r.Some? ==> r == s
  {
    if TruthyString(s) then s else None
  }

  /** `generateReport`'s summary over the rows its query returned: the
      per-category counts and revenues add up to the totals, and a category
      is listed exactly when some row has it. */
  function GenerateReport(startDate: Option<string>, endDate: Option<string>, rows: seq<Row>): (s: Summary)
    ensures s.totalTransactions == |rows|
    ensures s.totalRevenue == TotalRevenue(rows)
    ensures SumCounts(s.categoryStats) == s.totalTransactions
    ensures SumRevenue(s.categoryStats) == s.totalRevenue
    ensures forall c :: Keyed(s.categoryStats, c) <==> HasCategory(rows, c)
    ensures s.startDate == OrNull(startDate) && s.endDate == OrNull(endDate)
  {
    Summary(TotalRevenue(rows), |rows|, OrNull(startDate), OrNull(endDate), Aggregate(rows))
  }

  /** The report's date filter: the listing's builder with no user filter,
      so its placeholders run `$1..$k` over the dates alone. */
  function ReportFilter(startDate: Option<string>, endDate: Option<string>): (st: AdminQueries.FilterState)
    ensures forall i :: 0 <= i < |st.clauses| ==> st.clauses[i].filter != AdminQueries.UserIs
    ensures |st.params| == AdminQueries.Supplied(startDate) + AdminQueries.Supplied(endDate)
    ensures forall i :: 0 <= i < |st.clauses| ==> st.clauses[i].placeholder == i + 1
    ensures AdminQueries.Binds(st, None, startDate, endDate)
    ensures st.params == AdminQueries.Bound(startDate) + AdminQueries.Bound(endDate)
  {
    var st := AdminQueries.BuildFilter(None, startDate, endDate);
    assert AdminQueries.Bound(None) == [] && AdminQueries.Supplied(None) == 0;
    assert !TruthyString(AdminQueries.FilterValue(AdminQueries.UserIs, None, startDate, endDate));
    st
  }

  // ---------------------------------------------------------------------
  // The accumulator as written: a plain object literal

  /** The reducer as written tests `!acc[row.category]` on an object created
      by `{}`. A category named after an `Object.prototype` member finds that
      truthy inherited member, so no own entry is created and the row's
      count and amount land on the inherited member instead. */
  function AddRowAsWritten(stats: seq<CategoryStat>, row: Row): (r: seq<CategoryStat>)
    ensures row.category in ObjectPrototypeKeys ==> r == stats
    ensures row.category !in ObjectPrototypeKeys ==> r == AddRow(stats, row)
  {
    if row.category in ObjectPrototypeKeys then stats else AddRow(stats, row)
  }

  function AggregateAsWritten(rows: seq<Row>): seq<CategoryStat> {
    if |rows| == 0 then []
    else AddRowAsWritten(AggregateAsWritten(rows[..|rows| - 1]), rows[|rows| - 1])
  }

  /** One sale in a category named "constructor" is counted in the total
      but appears under no category: the per-category counts no longer add
      up to `totalTransactions`. */
  lemma AsWrittenLosesCategory()
    ensures var rows := [Row("constructor", 10.0)];
      && |rows| == 1
      && AggregateAsWritten(rows) == []
      && SumCounts(AggregateAsWritten(rows)) != |rows|
      && SumCounts(Aggregate(rows)) == |rows|
  {
    var rows := [Row("constructor", 10.0)];
    assert rows[..0] == [];
  }

  /** Where no category is an inherited name, the as-written reducer and
      the keyed one agree. */
  lemma {:induction false} AsWrittenAgreesElsewhere(rows: seq<Row>)
    requires forall i :: 0 <= i < |rows| ==> rows[i].category !in ObjectPrototypeKeys
    ensures AggregateAsWritten(rows) == Aggregate(rows)
  {
    if |rows| > 0 {
      AsWrittenAgreesElsewhere(rows[..|rows| - 1]);
    }
  }
}

=== FILE: db.dfy ===
/**
 In-memory picture of the relational tables the controllers read and
 write: users, products and transactions, as ordered rows.
 */
module Db {

  datatype User = User(id: int, username: string, email: string, role: string)

  datatype Product = Product(
    id: int, name: string, category: string, price: real,
    description: string, validityDays: int)

  datatype Transaction = Transaction(id: int, userId: int, productId: int, amount: real)

  datatype Db = Db(users: seq<User>, products: seq<Product>, transactions: seq<Transaction>)

  predicate HasUser(users: seq<User>, id: int) {
    exists i :: 0 <= i < |users| && users[i].id == id
  }

  predicate HasProduct(products: seq<Product>, id: int) {
    exists i :: 0 <= i < |products| && products[i].id == id
  }

  /** Primary keys: no two user rows share an id. */
  ghost predicate UniqueUserIds(users: seq<User>) {
    forall i, j :: 0 <= i < j < |users| ==> users[i].id != users[j].id
  }

  /** The application-level invariant that no two users share an email.
      The admin user update keeps it; the profile update keeps it only for a
      non-empty email (see `UserProfile.EmptyEmailSkipsGuard`). */
  ghost predicate UniqueEmails(users: seq<User>) {
    forall i, j :: 0 <= i < j < |users| ==> users[i].email != users[j].email
  }

  /** Every transaction points at an existing user and product. */
  ghost predicate ReferencesResolve(db: Db) {
    forall k :: 0 <= k < |db.transactions| ==>
      HasUser(db.users, db.transactions[k].userId) &&
      HasProduct(db.products, db.transactions[k].productId)
  }

  /** The three products the demo seeder inserts, with the ids the
      auto-increment key gives them in insertion order. */
  const SeededProducts: seq<Product> := [
    Product(1, "Internet Hemat 10GB", "Data", 50000.0, "Kuota 10GB masa aktif 30 hari", 30),
    Product(2, "Nelpon Sepuasnya", "Talktime", 20000.0, "Nelpon ke semua operator 100 menit", 7),
    Product(3, "Combo Sakti", "Mix", 75000.0, "Internet 15GB + Nelpon 50 menit", 30)
  ]
}

=== FILE: gateway.dfy ===
/**
 The ML gateway's request handling around the external scorer: input
 validation, annotation of the scored offers (`/api/predict`) and the
 per-offer save loop (`/api/predict-save`). The Python scorer and the HTTP
 post to the main backend are oracle parameters.
 */
module Gateway {
  import opened Js
  import opened Text
  import Records
  import OfferMapping
  import Reasons

  /** The ten feature keys the scorer expects, in declared order. */
  const RequiredFields: seq<string> := [
    "plan_type", "device_brand", "avg_data_usage_gb",
    "pct_video_usage", "avg_call_duration", "sms_freq",
    "monthly_spend", "topup_freq", "travel_score", "complaint_count"
  ]

  datatype Validation = Valid | Invalid(message: string)

  const MissingPrefix := "Missing required fields: "

  /** `validateCustomerData`: valid exactly when every required key is
      present (whatever its value); otherwise the message names the missing
      keys in declared order. */
  function ValidateCustomerData(data: Record): (v: Validation)
    ensures v.Valid? <==> forall k :: k in RequiredFields ==> k in data
    ensures v.Invalid? ==>
      var missing := Records.MissingKeys(RequiredFields, data);
      |missing| > 0 && v.message == MissingPrefix + Join(missing, ", ")
  {
    var missing := Records.MissingKeys(RequiredFields, data);
    if |missing| > 0 then
      assert missing[0] in RequiredFields && missing[0] !in data;
      Invalid(MissingPrefix + Join(missing, ", "))
    else Valid
  }

  // ---------------------------------------------------------------------
  // Scorer output and /api/predict

  /** One ranked offer as the scorer prints it; the label may be absent. */
  datatype ScoredOffer = ScoredOffer(offer: Option<string>, score: real)

  /** What the Python process printed: nothing, or a parsed ranking. */
  datatype ScorerOutput = NoOutput | Ranked(recommendations: seq<ScoredOffer>)

  /** A scored offer with the gateway's reason and product id attached. */
  datatype Annotated = Annotated(offer: string, score: real, reason: string, productId: int)

  datatype PredictReply =
    | PredictRejected(message: string)      // 400
    | PredictFailed(message: string)        // 500
    | Predicted(recommendations: seq<Annotated>)
    | PredictCrashed                        // a throw inside the close callback

  predicate AllLabelled(recs: seq<ScoredOffer>) {
    forall i :: 0 <= i < |recs| ==> recs[i].offer.Some?
  }

  function Annotate(recs: seq<ScoredOffer>, data: Record): (out: seq<Annotated>)
    requires AllLabelled(recs)
    ensures |out| == |recs|
    ensures forall i :: 0 <= i < |recs| ==>
      && out[i].offer == recs[i].offer.value
      && out[i].score == recs[i].score
      && out[i].reason == Reasons.GenerateReason(recs[i].offer.value, data)
      && out[i].productId == OfferMapping.MapToProductId(recs[i].offer)
      && 1 <= out[i].productId <= 3
  {
    seq(|recs|, i requires 0 <= i < |recs| && AllLabelled(recs) =>
      Annotated(recs[i].offer.value, recs[i].score,
                Reasons.GenerateReason(recs[i].offer.value, data),
                OfferMapping.MapToProductId(recs[i].offer)))
  }

  /** `/api/predict`: validation first (the scorer is not consulted on a
      rejected record), a 500 when the scorer prints nothing, then the
      scorer's ranking with reason and product id attached to every offer,
      in the scorer's order. */
  function Predict(data: Record, scorer: Record -> ScorerOutput): (reply: PredictReply)
    ensures reply.PredictRejected? <==> ValidateCustomerData(data).Invalid?
    ensures reply.PredictRejected? ==> reply == PredictRejected(ValidateCustomerData(data).message)
    ensures ValidateCustomerData(data).Valid? && scorer(data).NoOutput? ==>
      reply == PredictFailed("No output from Python")
    ensures reply.Predicted? ==>
      && scorer(data).Ranked?
      && |reply.recommendations| == |scorer(data).recommendations|
      && forall i :: 0 <= i < |reply.recommendations| ==>
           var rec := scorer(data).recommendations[i];
           && rec.offer == Some(reply.recommendations[i].offer)
           && reply.recommendations[i].score == rec.score
           && reply.recommendations[i].reason == Reasons.GenerateReason(rec.offer.value, data)
           && reply.recommendations[i].productId == OfferMapping.MapToProductId(rec.offer)
           && 1 <= reply.recommendations[i].productId <= 3
    ensures reply.Predicted? <==> (ValidateCustomerData(data).Valid? && scorer(data).Ranked? &&
                                   AllLabelled(scorer(data).recommendations))
    ensures (ValidateCustomerData(data).Valid? && scorer(data).Ranked? &&
             !AllLabelled(scorer(data).recommendations)) ==> reply == PredictCrashed
  {
    match ValidateCustomerData(data)
    case Invalid(message) => PredictRejected(message)
    case Valid =>
      match scorer(data)
      case NoOutput => PredictFailed("No output from Python")
      case Ranked(recs) =>
        // `rec.offer.toLowerCase()` throws on an absent label, outside any try.
        if AllLabelled(recs) then Predicted(Annotate(recs, data)) else PredictCrashed
  }

  // ---------------------------------------------------------------------
  // /api/predict-save

  /** Predict and predict-save agree: for a labelled ranking, the product
      id and reason `/api/predict` attaches to the i-th offer are the ones
      `/api/predict-save` posts for it, and the posted score is the shown
      score divided by 100. */
  lemma PredictAgreesWithSave(userId: Value, data: Record, scorer: Record -> ScorerOutput)
    requires ValidateCustomerData(data).Valid? && scorer(data).Ranked?
    requires AllLabelled(scorer(data).recommendations)
    ensures var shown := Predict(data, scorer).recommendations;
      var posted := Posts(userId, data, scorer(data).recommendations);
      && |posted| == |shown|
      && forall i :: 0 <= i < |shown| ==>
           && posted[i].productId == shown[i].productId
           && posted[i].reason == shown[i].reason
           && posted[i].score * 100.0 == shown[i].score
           && posted[i].userId == userId
  {
    EveryLabelledOfferPosted(userId, data, scorer(data).recommendations);
  }

  /** The body posted to the main backend for one recommendation. */
  datatype SaveRequest = SaveRequest(userId: Value, productId: int, score: real, reason: string)

  datatype PostResult = Posted | PostFailed(message: string)

  /** One entry of `savedResults`. */
  datatype SaveEntry = SaveEntry(offer: Option<string>, saved: bool, error: Option<string>)

  /** The TypeError `generateReason` raises for an absent label. */
  const MissingLabelError := "Cannot read properties of undefined (reading 'toLowerCase')"

  function RequestFor(userId: Value, data: Record, rec: ScoredOffer): (req: SaveRequest)
    requires rec.offer.Some?
    ensures req.userId == userId
    ensures 1 <= req.productId <= 3
    ensures req.score == rec.score / 100.0
    ensures req.productId == OfferMapping.MapToProductId(rec.offer)
    ensures req.reason == Reasons.GenerateReason(rec.offer.value, data)
  {
    SaveRequest(userId, OfferMapping.MapToProductId(rec.offer), rec.score / 100.0,
                Reasons.GenerateReason(rec.offer.value, data))
  }

  /** The outcome of every post the save loop makes: `post(i, request)` is
      what the call made in the loop's i-th iteration returned, so two
      identical requests may fare differently. */
  type Poster = (nat, SaveRequest) -> PostResult

  /** The outcome of saving one recommendation in iteration `i`: the request
      is built (the reason throws for an absent label) and posted; any throw
      is recorded as a failed entry with its message. */
  function SaveOne(userId: Value, data: Record, rec: ScoredOffer, i: nat, post: Poster): (e: SaveEntry)
    ensures e.offer == rec.offer
    ensures e.saved <==> rec.offer.Some? && post(i, RequestFor(userId, data, rec)) == Posted
    ensures e.saved ==> e.error.None?
    ensures rec.offer.None? ==> e.error == Some(MissingLabelError)
    ensures rec.offer.Some? && post(i, RequestFor(userId, data, rec)).PostFailed? ==>
      e.error == Some(post(i, RequestFor(userId, data, rec)).message)
  {
    if rec.offer.None? then SaveEntry(rec.offer, false, Some(MissingLabelError))
    else
      match post(i, RequestFor(userId, data, rec))
      case Posted => SaveEntry(rec.offer, true, None)
      case PostFailed(message) => SaveEntry(rec.offer, false, Some(message))
  }

  /** The save loop: one entry per scored offer, in order; a failed save is
      recorded and the loop carries on to the next offer. */
  function SaveAll(userId: Value, data: Record, recs: seq<ScoredOffer>, post: Poster)
    : (entries: seq<SaveEntry>)
    ensures |entries| == |recs|
    ensures forall i :: 0 <= i < |recs| ==> entries[i].offer == recs[i].offer
    ensures forall i :: 0 <= i < |recs| ==>
      (entries[i].saved <==> recs[i].offer.Some? && post(i, RequestFor(userId, data, recs[i])) == Posted)
    ensures forall i :: 0 <= i < |recs| ==> entries[i] == SaveOne(userId, data, recs[i], i, post)
    ensures forall i :: 0 <= i < |recs| ==> (entries[i].saved <==> entries[i].error.None?)
    ensures forall i :: 0 <= i < |recs| && recs[i].offer.None? ==> entries[i].error == Some(MissingLabelError)
  {
    seq(|recs|, i requires 0 <= i < |recs| => SaveOne(userId, data, recs[i], i, post))
  }

  /** The labelled offers, in the scorer's order: the ones the loop gets
      as far as posting (an absent label throws before the post). */
  function Labelled(recs: seq<ScoredOffer>): (ls: seq<ScoredOffer>)
    ensures |ls| <= |recs|
    ensures AllLabelled(ls)
    ensures AllLabelled(recs) ==> ls == recs
  {
    if |recs| == 0 then []
    else
      var rest := Labelled(recs[1..]);
      assert AllLabelled(recs) ==> AllLabelled(recs[1..]) by {
        if AllLabelled(recs) {
          forall i | 0 <= i < |recs[1..]|
            ensures recs[1..][i].offer.Some?
          {
            assert recs[1..][i] == recs[i + 1];
          }
        }
      }
      if recs[0].offer.None? then rest
      else
        assert ([recs[0]] + rest)[1..] == rest;
        [recs[0]] + rest
  }

  /** `Labelled` is the ordered filter: it keeps exactly the labelled
      offers, as a subsequence of the ranking. */
  lemma {:induction false} LabelledMembers(recs: seq<ScoredOffer>)
    ensures forall r :: r in Labelled(recs) <==> r in recs && r.offer.Some?
    ensures Records.IsSubsequence(Labelled(recs), recs)
  {
    if |recs| > 0 {
      LabelledMembers(recs[1..]);
      assert recs == [recs[0]] + recs[1..];
      if recs[0].offer.Some? {
        assert Labelled(recs)[1..] == Labelled(recs[1..]);
      }
    }
  }

  /** Filtering keeps the scorer's order: the labelled offers of a ranking
      are those of its first part followed by those of the rest. */
  lemma {:induction false} LabelledInOrder(a: seq<ScoredOffer>, b: seq<ScoredOffer>)
    ensures Labelled(a + b) == Labelled(a) + Labelled(b)
  {
    if |a| > 0 {
      LabelledInOrder(a[1..], b);
      assert (a + b)[1..] == a[1..] + b;
      assert (a + b)[0] == a[0];
      var head := if a[0].offer.Some? then [a[0]] else [];
      assert Labelled(a + b) == head + Labelled(a[1..] + b);
      assert Labelled(a) == head + Labelled(a[1..]);
    } else {
      assert a + b == b;
    }
  }

  /** The requests the loop actually posts, in order: the k-th post is the
      request for the k-th labelled offer. */
  function Posts(userId: Value, data: Record, recs: seq<ScoredOffer>): (requests: seq<SaveRequest>)
    ensures |requests| == |Labelled(recs)| <= |recs|
    ensures forall k :: 0 <= k < |requests| ==>
      && requests[k] == RequestFor(userId, data, Labelled(recs)[k])
      && 1 <= requests[k].productId <= 3 && requests[k].userId == userId
  {
    var ls := Labelled(recs);
    seq(|ls|, k requires 0 <= k < |ls| && AllLabelled(ls) => RequestFor(userId, data, ls[k]))
  }

  /** Each posted score is the scorer's percentage divided by 100. */
  lemma PostedScoreIsFraction(userId: Value, data: Record, rec: ScoredOffer)
    requires rec.offer.Some?
    ensures RequestFor(userId, data, rec).score * 100.0 == rec.score
  {
  }

  /** With every offer labelled, the requests the loop posts are exactly
      the per-offer requests, in the scorer's order. */
  lemma EveryLabelledOfferPosted(userId: Value, data: Record, recs: seq<ScoredOffer>)
    requires AllLabelled(recs)
    ensures |Posts(userId, data, recs)| == |recs|
    ensures forall k :: 0 <= k < |recs| ==>
      Posts(userId, data, recs)[k] == RequestFor(userId, data, recs[k])
  {
  }

  const SaveFieldsRequired := "userId and customerData are required"

  datatype SaveReply =
    | SaveRejected(message: string)   // 400
    | SaveCompleted(saved: seq<SaveEntry>)
    | SaveCrashed                     // `JSON.parse('')` throws inside the close callback

  /** `/api/predict-save`: a falsy user id or an absent record is rejected;
      the record is not validated; an empty scorer output crashes the
      handler; otherwise every scored offer goes through the save loop. */
  function PredictSave(userId: Option<Value>, customerData: Option<Record>,
                       scorer: Record -> ScorerOutput, post: Poster)
    : (reply: SaveReply)
    ensures reply.SaveRejected? <==> !Truthy(userId) || customerData.None?
    ensures reply.SaveRejected? ==> reply.message == SaveFieldsRequired
    ensures Truthy(userId) && customerData.Some? ==>
      (reply.SaveCompleted? <==> scorer(customerData.value).Ranked?)
    ensures reply.SaveCompleted? ==>
      && customerData.Some? && scorer(customerData.value).Ranked?
      && |reply.saved| == |scorer(customerData.value).recommendations|
      && reply.saved == SaveAll(userId.value, customerData.value, scorer(customerData.value).recommendations, post)
  {
    if !Truthy(userId) || customerData.None? then
      SaveRejected(SaveFieldsRequired)
    else
      match scorer(customerData.value)
      case NoOutput => SaveCrashed
      case Ranked(recs) => SaveCompleted(SaveAll(userId.value, customerData.value, recs, post))
  }
}

=== FILE: initials.dfy ===
/**
 The profile page's avatar initials: split the name on single spaces, take
 each piece's first character (an empty piece gives nothing), join,
 upper-case, keep at most two characters.
 */
module Initials {
  import opened Text

  /** The first character of every word, joined: an empty word has no first
      character (undefined), which joining writes as the empty string. */
  function FirstChars(words: seq<string>): (r: string)
    ensures |r| <= |words|
  {
    if |words| == 0 then ""
    else (if |words[0]| > 0 then [words[0][0]] else "") + FirstChars(words[1..])
  }

  /** Reference scanner: the characters of `s` that start a word, i.e. are
      not a space and follow a space or the start (`afterSpace` says whether
      the previous character was a space, or there was none). */
  function WordStartsFrom(s: string, afterSpace: bool): (r: string)
    ensures ' ' !in r
    ensures |r| <= |s|
  {
    if |s| == 0 then ""
    else (if s[0] != ' ' && afterSpace then [s[0]] else "") + WordStartsFrom(s[1..], s[0] == ' ')
  }

  function WordStarts(s: string): string {
    WordStartsFrom(s, true)
  }

  /** The first characters of the split pieces are exactly the word starts
      the scanner finds; the pieces after the first one start after a space. */
  lemma {:induction false} FirstCharsAreWordStarts(s: string)
    ensures FirstChars(SplitSpaces(s)) == WordStartsFrom(s, true)
    ensures FirstChars(SplitSpaces(s)[1..]) == WordStartsFrom(s, false)
  {
    if |s| > 0 {
      var rest := SplitSpaces(s[1..]);
      FirstCharsAreWordStarts(s[1..]);
      if s[0] == ' ' {
        assert SplitSpaces(s)[1..] == rest;
      } else {
        assert SplitSpaces(s)[1..] == rest[1..];
      }
    }
  }

  function Min(a: int, b: int): int {
    if a <= b then a else b
  }

  /** `getInitials(name)`: the upper-cased first letters of the first two
      words; runs of spaces and leading or trailing spaces add nothing. */
  function GetInitials(name: string): (r: string)
    ensures |r| == Min(2, |WordStarts(name)|)
    ensures forall i :: 0 <= i < |r| ==> r[i] == UpperChar(WordStarts(name)[i])
  {
    var joined := FirstChars(SplitSpaces(name));
    FirstCharsAreWordStarts(name);
    var upper := Upper(joined);
    upper[..Min(2, |upper|)]
  }

  /** No output character is a space. */
  lemma InitialsHaveNoSpace(name: string)
    ensures ' ' !in GetInitials(name)
  {
    var r := GetInitials(name);
    forall i | 0 <= i < |r|
      ensures r[i] != ' '
    {
      assert WordStarts(name)[i] in WordStarts(name);
    }
  }

  /** Leading spaces change nothing. */
  lemma LeadingSpaceIgnored(name: string)
    ensures GetInitials(" " + name) == GetInitials(name)
  {
    assert (" " + name)[1..] == name;
    assert WordStarts(" " + name) == WordStarts(name);
  }

  /** One scanning step. */
  lemma ScanStep(c: char, s: string, afterSpace: bool)
    ensures WordStartsFrom([c] + s, afterSpace) ==
      (if c != ' ' && afterSpace then [c] else "") + WordStartsFrom(s, c == ' ')
  {
    assert ([c] + s)[1..] == s;
  }

  /** After a word, " Doe" contributes its "D" alone. */
  lemma SpaceDoe()
    ensures WordStartsFrom([' ', 'D', 'o', 'e'], false) == ['D']
  {
    ScanStep('e', [], false);
    ScanStep('o', ['e'], false);
    ScanStep('D', ['o', 'e'], true);
    ScanStep(' ', ['D', 'o', 'e'], false);
  }

  lemma JohnDoeWordStarts()
    ensures WordStarts("John Doe") == "JD"
  {
    SpaceDoe();
    ScanStep('n', [' ', 'D', 'o', 'e'], false);
    ScanStep('h', ['n', ' ', 'D', 'o', 'e'], false);
    ScanStep('o', ['h', 'n', ' ', 'D', 'o', 'e'], false);
    ScanStep('J', ['o', 'h', 'n', ' ', 'D', 'o', 'e'], true);
    assert "John Doe" == ['J'] + ['o', 'h', 'n', ' ', 'D', 'o', 'e'];
  }

  /** The default username gives "JD", and the empty name gives "". */
  lemma Examples()
    ensures GetInitials("John Doe") == "JD"
    ensures GetInitials("") == ""
  {
    JohnDoeWordStarts();
    var r := GetInitials("John Doe");
    assert r[0] == 'J' && r[1] == 'D';
  }
}

=== FILE: js.dfy ===
/**
 The slice of JavaScript value semantics the controllers rely on: optional
 (undefined) values, JSON scalars, truthiness, loose `>` against a number,
 and the property names every plain object literal inherits.
 */
module Js {

  datatype Option<+T> = None | Some(value: T)

  /** A JSON scalar as it arrives in a request body. */
  datatype Value = Null | Bool(b: bool) | Num(n: real) | Str(s: string)

  /** A parsed JSON object: key presence is what `key in obj` tests. */
  type Record = map<string, Value>

  function Get(r: Record, key: string): (v: Option<Value>)
    ensures v.Some? <==> key in r
  {
    if key in r then Some(r[key]) else None
  }

  /** JavaScript truthiness of a possibly-undefined value. */
  predicate Truthy(v: Option<Value>) {
    match v
    case None => false
    case Some(Null) => false
    case Some(Bool(b)) => b
    case Some(Num(n)) => n != 0.0
    case Some(Str(s)) => s != ""
  }

  /** Truthiness of a possibly-undefined string field. */
  predicate TruthyString(v: Option<string>) {
    v.Some? && v.value != ""
  }

  /** `v > k` for a numeric literal `k`: undefined compares false, null reads
      as 0 and booleans as 0 or 1. A string operand is taken as NaN. */
  predicate GreaterThan(v: Option<Value>, k: real) {
    match v
    case None => false
    case Some(Null) => 0.0 > k
    case Some(Bool(b)) => (if b then 1.0 else 0.0) > k
    case Some(Num(n)) => n > k
    case Some(Str(_)) => false
  }

  /** The property names an object literal `{}` inherits from
      `Object.prototype`; `obj[name]` is truthy for each of them even when
      `obj` has no own property of that name. */
  const ObjectPrototypeKeys: set<string> :=
    {"constructor", "__proto__", "toString", "toLocaleString", "valueOf",
     "hasOwnProperty", "isPrototypeOf", "propertyIsEnumerable",
     "__defineGetter__", "__defineSetter__", "__lookupGetter__", "__lookupSetter__"}
}

=== FILE: ml_controller.dfy ===
/**
 The main backend's bridge to the ML gateway: it checks the customer
 record, forwards it with the caller's user id, and turns the gateway's
 answer (or the transport error) into an HTTP status.
 */
module MlController {
  import opened Js
  import opened Text
  import Records
  import Gateway

  /** The controller's own copy of the required feature keys. */
  const RequiredFields: seq<string> := [
    "plan_type", "device_brand", "avg_data_usage_gb",
    "pct_video_usage", "avg_call_duration", "sms_freq",
    "monthly_spend", "topup_freq", "travel_score", "complaint_count"
  ]

  /** The keys the request body lacks, in declared order. */
  function MissingFields(body: Record): (missing: seq<string>)
    ensures forall k :: k in missing <==> k in RequiredFields && k !in body
    ensures Records.IsSubsequence(missing, RequiredFields)
  {
    Records.MissingKeys(RequiredFields, body)
  }

  /** The request forwarded to the gateway's `/api/predict-save`. */
  datatype MlRequest = MlRequest(userId: int, customerData: Record)

  /** An HTTP error response carried by a failed call. */
  datatype ErrorResponse = ErrorResponse(status: int, message: Option<string>)

  /** How the call to the gateway ended: a 2xx body (with its `status`
      field, if any), or a thrown error with its `code` and response. */
  datatype MlOutcome =
    | Responded(bodyStatus: Option<string>)
    | Failed(code: Option<string>, response: Option<ErrorResponse>)

  datatype Reply = Reply(status: int, message: string)

  const ConnectionRefused := "ECONNREFUSED"
  const ServiceUnavailable := "ML service is not available"
  const ServiceError := "ML service error"
  const GenerationFailed := "Failed to generate recommendations"

  /** The status the controller answers for a completed call. */
  function ClassifyOutcome(outcome: MlOutcome): (reply: Reply)
    ensures outcome.Responded? ==>
              (reply.status == 200 <==> outcome.bodyStatus == Some("success"))
    ensures outcome.Responded? && outcome.bodyStatus != Some("success") ==> reply.status == 500
    ensures outcome.Failed? && outcome.code == Some(ConnectionRefused) ==>
              reply == Reply(503, ServiceUnavailable)
    ensures outcome.Failed? && outcome.code != Some(ConnectionRefused) && outcome.response.Some? ==>
              && reply.status == outcome.response.value.status
              && (outcome.response.value.message.Some? && outcome.response.value.message.value != "" ==>
                    reply.message == outcome.response.value.message.value)
              && (outcome.response.value.message.None? || outcome.response.value.message == Some("") ==>
                    reply.message == ServiceError)
    ensures outcome.Failed? && outcome.code != Some(ConnectionRefused) && outcome.response.None? ==>
              reply == Reply(500, GenerationFailed)
  {
    match outcome
    case Responded(bodyStatus) =>
      if bodyStatus == Some("success") then
        Reply(200, "Recommendations generated and saved successfully")
      else Reply(500, "ML prediction failed")
    case Failed(code, response) =>
      if code == Some(ConnectionRefused) then Reply(503, ServiceUnavailable)
      else if response.Some? then
        Reply(response.value.status,
              match response.value.message
              case Some(m) => if m != "" then m else ServiceError
              case None => ServiceError)
      else Reply(500, GenerationFailed)
  }

  /** `generateRecommendation`: a body missing any required key is answered
      400 with the missing keys listed; otherwise the gateway is called once
      with the user id and the body, and its outcome is classified. */
  function GenerateRecommendation(userId: int, body: Record, callGateway: MlRequest -> MlOutcome)
    : (reply: Reply)
    ensures |MissingFields(body)| > 0 ==>
      reply == Reply(400, Gateway.MissingPrefix + Join(MissingFields(body), ", "))
    ensures |MissingFields(body)| == 0 ==>
      reply == ClassifyOutcome(callGateway(MlRequest(userId, body)))
  {
    var missing := MissingFields(body);
    if |missing| > 0 then Reply(400, Gateway.MissingPrefix + Join(missing, ", "))
    else ClassifyOutcome(callGateway(MlRequest(userId, body)))
  }

  /** A rejected body never reaches the gateway: the reply is the same
      whatever the gateway would have answered. */
  lemma RejectedBodyNeverCallsGateway(userId: int, body: Record,
                                      call1: MlRequest -> MlOutcome, call2: MlRequest -> MlOutcome)
    requires |MissingFields(body)| > 0
    ensures GenerateRecommendation(userId, body, call1) == GenerateRecommendation(userId, body, call2)
    ensures GenerateRecommendation(userId, body, call1).status == 400
  {
  }

  /** A refused connection answers 503 whatever response the error carries. */
  lemma ConnectionRefusedWins(response: Option<ErrorResponse>)
    ensures ClassifyOutcome(Failed(Some(ConnectionRefused), response)).status == 503
  {
  }

  /** The controller and the gateway demand the same keys, so they accept
      exactly the same records and report the same message. */
  lemma ValidatorsAgree(body: Record)
    ensures Gateway.ValidateCustomerData(body).Valid? <==> |MissingFields(body)| == 0
    ensures |MissingFields(body)| > 0 ==>
      Gateway.ValidateCustomerData(body) == Gateway.Invalid(GenerateRecommendation(0, body, _ => Responded(None)).message)
  {
    assert RequiredFields == Gateway.RequiredFields;
  }

  datatype HealthOutcome = Reachable | Unreachable(message: string)

  /** `checkMLHealth`: success when the gateway answers, 503 otherwise. */
  function CheckMlHealth(outcome: HealthOutcome): (reply: Reply)
    ensures reply.status == 200 <==> outcome.Reachable?
    ensures reply.status == 503 <==> outcome.Unreachable?
  {
    match outcome
    case Reachable => Reply(200, "ML service is healthy")
    case Unreachable(_) => Reply(503, ServiceUnavailable)
  }

  // ---------------------------------------------------------------------
  // The two backends together

  /** What the controller observes when the gateway's `/api/predict-save`
      handles its request: a completed save loop is a 200 body with status
      'success'; a 400 comes back as an error carrying that response; a
      crashed gateway drops the connection. */
  function ThroughGateway(scorer: Record -> Gateway.ScorerOutput,
                          post: Gateway.Poster)
    : (call: MlRequest -> MlOutcome)
    ensures forall req: MlRequest ::
      var reply := Gateway.PredictSave(Some(Num(req.userId as real)), Some(req.customerData), scorer, post);
      && (ClassifyOutcome(call(req)).status == 200 <==> reply.SaveCompleted?)
      && (ClassifyOutcome(call(req)).status == 400 <==> reply.SaveRejected?)
      && (ClassifyOutcome(call(req)).status == 500 <==> reply.SaveCrashed?)
      && (reply.SaveRejected? ==> ClassifyOutcome(call(req)) == Reply(400, Gateway.SaveFieldsRequired))
  {
    (req: MlRequest) =>
      match Gateway.PredictSave(Some(Num(req.userId as real)), Some(req.customerData), scorer, post)
      case SaveCompleted(_) => Responded(Some("success"))
      case SaveRejected(message) => Failed(None, Some(ErrorResponse(400, Some(message))))
      case SaveCrashed => Failed(Some("ECONNRESET"), None)
  }

  /** End to end: for a signed-in user (ids start at 1), a complete record
      and a scorer that prints a ranking, the controller answers 200, even
      when every individual save fails. */
  lemma CompleteRecordSucceedsEndToEnd(userId: int, body: Record,
                                       scorer: Record -> Gateway.ScorerOutput,
                                       post: Gateway.Poster)
    requires userId >= 1
    requires forall k :: k in RequiredFields ==> k in body
    requires scorer(body).Ranked?
    ensures GenerateRecommendation(userId, body, ThroughGateway(scorer, post)).status == 200
  {
    ValidatorsAgree(body);
    assert Truthy(Some(Num(userId as real)));
  }
}

=== FILE: offer_mapping.dfy ===
/**
 Resolution of the scorer's free-text offer label onto one of the three
 seeded catalog products, as the ML gateway does it before saving a
 recommendation: exact (case-insensitive) name table, then keyword tests
 in a fixed priority order, then product 1.
 */
module OfferMapping {
  import opened Js
  import opened Text
  import Db

  /** The exact-name table, keyed by the lower-cased offer. */
  function ExactName(lower: string): Option<int> {
    if lower == "internet hemat 10gb" then Some(1)
    else if lower == "nelpon sepuasnya" then Some(2)
    else if lower == "combo sakti" then Some(3)
    else None
  }

  predicate IsDataLabel(lower: string) {
    Contains(lower, "internet") || Contains(lower, "data")
  }

  predicate IsVoiceLabel(lower: string) {
    Contains(lower, "nelpon") || Contains(lower, "call") || Contains(lower, "voice")
  }

  predicate IsComboLabel(lower: string) {
    Contains(lower, "combo")
  }

  /** The product id the gateway attaches to a scored offer. A missing or
      empty offer, and a label that no rule recognises, fall back to 1. */
  function MapToProductId(offer: Option<string>): (id: int)
    ensures 1 <= id <= 3
    ensures !TruthyString(offer) ==> id == 1
    ensures offer.Some? && ExactName(Lower(offer.value)).Some? ==>
              id == ExactName(Lower(offer.value)).value
  {
    if !TruthyString(offer) then 1
    else
      var lower := Lower(offer.value);
      if ExactName(lower).Some? then ExactName(lower).value
      else if IsDataLabel(lower) then 1
      else if IsVoiceLabel(lower) then 2
      else if IsComboLabel(lower) then 3
      else 1
  }

  /** The keyword tiers alone, without the exact-name table. */
  function KeywordTier(lower: string): int {
    if IsDataLabel(lower) then 1
    else if IsVoiceLabel(lower) then 2
    else if IsComboLabel(lower) then 3
    else 1
  }

  /** The exact-name table never disagrees with the keyword tiers: each
      listed name already contains the keyword of its own product and none
      of a higher-priority one. So the mapping is exactly the keyword
      priority order: data/internet beats nelpon/call/voice beats combo,
      and a label with none of them maps to 1. */
  lemma KeywordPriority(offer: string)
    requires offer != ""
    ensures MapToProductId(Some(offer)) == KeywordTier(Lower(offer))
    ensures IsDataLabel(Lower(offer)) ==> MapToProductId(Some(offer)) == 1
    ensures !IsDataLabel(Lower(offer)) && IsVoiceLabel(Lower(offer)) ==>
              MapToProductId(Some(offer)) == 2
    ensures !IsDataLabel(Lower(offer)) && !IsVoiceLabel(Lower(offer)) && IsComboLabel(Lower(offer)) ==>
              MapToProductId(Some(offer)) == 3
    ensures !IsDataLabel(Lower(offer)) && !IsVoiceLabel(Lower(offer)) && !IsComboLabel(Lower(offer)) ==>
              MapToProductId(Some(offer)) == 1
  {
    var lower := Lower(offer);
    if lower == "internet hemat 10gb" {
      assert OccursAt(lower, "internet", 0);
    } else if lower == "nelpon sepuasnya" {
      assert OccursAt(lower, "nelpon", 0);
      NotContained(lower, "internet", 0);
      NotContained(lower, "data", 0);
    } else if lower == "combo sakti" {
      assert OccursAt(lower, "combo", 0);
      NotContained(lower, "internet", 1);
      NotContained(lower, "data", 0);
      NotContained(lower, "nelpon", 0);
      NotContained(lower, "call", 2);
      NotContained(lower, "voice", 0);
    }
  }

  /** Letter case never matters: a label and its lower-case form map alike. */
  lemma CaseInsensitive(offer: string)
    ensures MapToProductId(Some(offer)) == MapToProductId(Some(Lower(offer)))
  {
    LowerIdempotent(offer);
  }

  /** Every seeded product's own name, in any letter case, maps back to that
      product's id: the resolver is a left inverse of catalog naming. */
  lemma SeededNamesRoundTrip(offer: string, k: int)
    requires 0 <= k < |Db.SeededProducts|
    requires Lower(offer) == Lower(Db.SeededProducts[k].name)
    ensures MapToProductId(Some(offer)) == Db.SeededProducts[k].id
  {
    var name := Db.SeededProducts[k].name;
    assert offer != "";
    if k == 0 {
      LowerPointwise(name, "internet hemat 10gb");
    } else if k == 1 {
      LowerPointwise(name, "nelpon sepuasnya");
    } else {
      LowerPointwise(name, "combo sakti");
    }
  }

  /** Every id the mapping can produce names a seeded product. */
  lemma ResultIsSeeded(offer: Option<string>)
    ensures exists k :: 0 <= k < |Db.SeededProducts| && Db.SeededProducts[k].id == MapToProductId(offer)
  {
    var id := MapToProductId(offer);
    assert Db.SeededProducts[id - 1].id == id;
  }

  // ---------------------------------------------------------------------
  // The table lookup as written: `mapping[lower]` on an object literal.

  /** What `mapping[lower]` can yield: an own entry, or a member inherited
      from `Object.prototype` (a function or the prototype object). */
  datatype Lookup = Id(id: int) | InheritedMember(name: string)

  /** The gateway's mapping with JavaScript property lookup: a label whose
      lower-case form is an inherited property name (`constructor`,
      `__proto__`) finds that truthy member and returns it instead of an id. */
  function MapToProductIdAsWritten(offer: Option<string>): (r: Lookup)
    ensures r.InheritedMember? ==> r.name in ObjectPrototypeKeys
  {
    if !TruthyString(offer) then Id(1)
    else
      var lower := Lower(offer.value);
      if ExactName(lower).Some? then Id(ExactName(lower).value)
      else if lower in ObjectPrototypeKeys then InheritedMember(lower)
      else Id(MapToProductId(offer))
  }

  /** The as-written lookup returns something that is not a product id for
      the label "Constructor". */
  lemma AsWrittenReturnsNonId()
    ensures MapToProductIdAsWritten(Some("Constructor")) == InheritedMember("constructor")
  {
    LowerPointwise("Constructor", "constructor");
  }

  /** Away from inherited property names the as-written lookup and the
      own-key mapping agree. */
  lemma AsWrittenAgreesElsewhere(offer: Option<string>)
    requires offer.Some? ==> Lower(offer.value) !in ObjectPrototypeKeys
    ensures MapToProductIdAsWritten(offer) == Id(MapToProductId(offer))
  {
  }
}

=== FILE: reasons.dfy ===
/**
 The reason sentence the ML gateway attaches to every recommendation:
 fragments chosen by threshold rules over the customer record, in a fixed
 order, joined with ". ".
 */
module Reasons {
  import opened Js
  import opened Text
  import OfferMapping

  /** The sentence fragments, in the order the rules are tested. */
  datatype Fragment =
    | DataUsage | Video | Call | Postpaid | Prepaid | Spend | Travel
    | Fallback  // used only when no rule fires, which cannot happen: see `Fragments`

  function Wording(f: Fragment): string {
    match f
    case DataUsage => "Penggunaan data Anda tinggi"
    case Video => "Anda sering streaming video"
    case Call => "Durasi telepon Anda tinggi"
    case Postpaid => "Cocok untuk pengguna postpaid"
    case Prepaid => "Cocok untuk pengguna prepaid"
    case Spend => "Sesuai dengan budget bulanan Anda"
    case Travel => "Cocok untuk yang sering bepergian"
    case Fallback => "Berdasarkan analisis perilaku penggunaan Anda"
  }

  /** Position of a fragment in the fixed output order; the two plan
      fragments share a position because exactly one of them is emitted. */
  function Rank(f: Fragment): nat {
    match f
    case DataUsage => 0
    case Video => 1
    case Call => 2
    case Postpaid => 3
    case Prepaid => 3
    case Spend => 4
    case Travel => 5
    case Fallback => 6
  }

  predicate IsPostpaid(data: Record) {
    Get(data, "plan_type") == Some(Str("Postpaid"))
  }

  /** The rule conditions, each a strict `>` against its threshold. */
  predicate HighDataUsage(offer: string, data: Record) {
    OfferMapping.IsDataLabel(Lower(offer)) && GreaterThan(Get(data, "avg_data_usage_gb"), 3.0)
  }

  predicate HeavyVideo(offer: string, data: Record) {
    OfferMapping.IsDataLabel(Lower(offer)) && GreaterThan(Get(data, "pct_video_usage"), 0.5)
  }

  predicate LongCalls(offer: string, data: Record) {
    OfferMapping.IsVoiceLabel(Lower(offer)) && GreaterThan(Get(data, "avg_call_duration"), 10.0)
  }

  predicate HighSpend(data: Record) {
    GreaterThan(Get(data, "monthly_spend"), 100000.0)
  }

  predicate Traveller(data: Record) {
    GreaterThan(Get(data, "travel_score"), 0.5)
  }

  function When(condition: bool, f: Fragment): (r: seq<Fragment>)
    ensures |r| <= 1
    ensures forall x :: x in r <==> condition && x == f
  {
    if condition then [f] else []
  }

  /** Ranks strictly increase along the sequence. */
  ghost predicate InOrder(r: seq<Fragment>) {
    forall i, j :: 0 <= i < j < |r| ==> Rank(r[i]) < Rank(r[j])
  }

  /** Appending at most one fragment of rank `k` behind fragments of lower
      rank keeps the order. */
  lemma AppendInOrder(a: seq<Fragment>, b: seq<Fragment>, k: nat)
    requires InOrder(a) && |b| <= 1
    requires forall x :: x in a ==> Rank(x) < k
    requires forall y :: y in b ==> Rank(y) == k
    ensures InOrder(a + b)
    ensures forall x :: x in a + b ==> Rank(x) <= k
  {
    if |b| == 1 {
      assert (a + b)[|a|] == b[0];
      forall i | 0 <= i < |a|
        ensures (a + b)[i] == a[i]
      {
      }
    } else {
      assert a + b == a;
    }
  }

  /** Which rules fire, one flag per threshold test. */
  datatype Firing = Firing(
    highDataUsage: bool, heavyVideo: bool, longCalls: bool,
    postpaid: bool, highSpend: bool, traveller: bool)

  function Evaluate(offer: string, data: Record): Firing {
    Firing(HighDataUsage(offer, data), HeavyVideo(offer, data), LongCalls(offer, data),
           IsPostpaid(data), HighSpend(data), Traveller(data))
  }

  /** The fragments of the rules that fire, in rule order. */
  function Fired(f: Firing): seq<Fragment> {
    When(f.highDataUsage, DataUsage)
    + When(f.heavyVideo, Video)
    + When(f.longCalls, Call)
    + [if f.postpaid then Postpaid else Prepaid]
    + When(f.highSpend, Spend)
    + When(f.traveller, Travel)
  }

  lemma FiredMembers(f: Firing)
    ensures Fallback !in Fired(f)
    ensures Postpaid in Fired(f) <==> f.postpaid
    ensures Prepaid in Fired(f) <==> !f.postpaid
    ensures DataUsage in Fired(f) <==> f.highDataUsage
    ensures Video in Fired(f) <==> f.heavyVideo
    ensures Call in Fired(f) <==> f.longCalls
    ensures Spend in Fired(f) <==> f.highSpend
    ensures Travel in Fired(f) <==> f.traveller
  {
    var usage := When(f.highDataUsage, DataUsage);
    var video := When(f.heavyVideo, Video);
    var call := When(f.longCalls, Call);
    var plan := [if f.postpaid then Postpaid else Prepaid];
    var spend := When(f.highSpend, Spend);
    var travel := When(f.traveller, Travel);
    assert Fired(f) == usage + video + call + plan + spend + travel;
    forall x
      ensures x in Fired(f) <==>
        x in usage || x in video || x in call || x in plan || x in spend || x in travel
    {
    }
  }

  lemma FiredInOrder(f: Firing)
    ensures 1 <= |Fired(f)| <= 6
    ensures InOrder(Fired(f))
  {
    var usage := When(f.highDataUsage, DataUsage);
    var video := When(f.heavyVideo, Video);
    var call := When(f.longCalls, Call);
    var plan := [if f.postpaid then Postpaid else Prepaid];
    var spend := When(f.highSpend, Spend);
    var travel := When(f.traveller, Travel);
    AppendInOrder([], usage, 0);
    AppendInOrder(usage, video, 1);
    AppendInOrder(usage + video, call, 2);
    AppendInOrder(usage + video + call, plan, 3);
    AppendInOrder(usage + video + call + plan, spend, 4);
    AppendInOrder(usage + video + call + plan + spend, travel, 5);
  }

  /** The fragments of the rules that fire, in rule order, with the generic
      sentence only when none fires. */
  function Select(f: Firing): (r: seq<Fragment>)
    ensures 1 <= |r| <= 6
    ensures Fallback !in r
    ensures Postpaid in r <==> f.postpaid
    ensures Prepaid in r <==> !f.postpaid
    ensures DataUsage in r <==> f.highDataUsage
    ensures Video in r <==> f.heavyVideo
    ensures Call in r <==> f.longCalls
    ensures Spend in r <==> f.highSpend
    ensures Travel in r <==> f.traveller
    ensures InOrder(r)
  {
    var reasons := Fired(f);
    FiredMembers(f);
    FiredInOrder(f);
    if |reasons| == 0 then [Fallback] else reasons
  }

  /** The fragments `generateReason` collects for one offer label: each
      appears exactly when its rule fires, in the fixed rule order, one of the
      two plan fragments always appears, and the generic sentence never does. */
  function Fragments(offer: string, data: Record): (r: seq<Fragment>)
    ensures 1 <= |r| <= 6
    ensures Fallback !in r
    ensures Postpaid in r <==> IsPostpaid(data)
    ensures Prepaid in r <==> !IsPostpaid(data)
    ensures DataUsage in r <==> HighDataUsage(offer, data)
    ensures Video in r <==> HeavyVideo(offer, data)
    ensures Call in r <==> LongCalls(offer, data)
    ensures Spend in r <==> HighSpend(data)
    ensures Travel in r <==> Traveller(data)
    ensures InOrder(r)
  {
    Select(Evaluate(offer, data))
  }

  function Texts(fs: seq<Fragment>): (texts: seq<string>)
    ensures |texts| == |fs|
    ensures forall i :: 0 <= i < |fs| ==> texts[i] == Wording(fs[i])
  {
    seq(|fs|, i requires 0 <= i < |fs| => Wording(fs[i]))
  }

  /** The rule fragments are 26 to 33 characters long; the generic
      sentence is 45. */
  lemma WordingLength(f: Fragment)
    ensures f != Fallback ==> 26 <= |Wording(f)| <= 33
    ensures f == Fallback ==> |Wording(f)| == 45
  {
  }

  /** No rule fragment contains a full stop, so ". " separates them
      unambiguously. Each wording is checked one literal at a time. */
  lemma NoFullStop(f: Fragment)
    requires f != Fallback
    ensures '.' !in Wording(f)
  {
    match f
    case DataUsage => NoFullStopInDataUsage();
    case Video => NoFullStopInVideo();
    case Call => NoFullStopInCall();
    case Postpaid => NoFullStopInPostpaid();
    case Prepaid => NoFullStopInPrepaid();
    case Spend => NoFullStopInSpend();
    case Travel => NoFullStopInTravel();
    case Fallback =>
  }

  lemma NoFullStopInDataUsage() ensures '.' !in Wording(DataUsage) {}
  lemma NoFullStopInVideo() ensures '.' !in Wording(Video) {}
  lemma NoFullStopInCall() ensures '.' !in Wording(Call) {}
  lemma NoFullStopInPostpaid() ensures '.' !in Wording(Postpaid) {}
  lemma NoFullStopInPrepaid() ensures '.' !in Wording(Prepaid) {}
  lemma NoFullStopInSpend() ensures '.' !in Wording(Spend) {}
  lemma NoFullStopInTravel() ensures '.' !in Wording(Travel) {}

  /** Joining one or more rule fragments cannot spell the generic sentence:
      one fragment is too short, two or more are too long. */
  lemma JoinedIsNotGeneric(fragments: seq<Fragment>)
    requires |fragments| >= 1 && Fallback !in fragments
    ensures Join(Texts(fragments), ". ") != Wording(Fallback)
    ensures Join(Texts(fragments), ". ") != ""
  {
    var texts := Texts(fragments);
    WordingLength(fragments[0]);
    WordingLength(Fallback);
    if |fragments| > 1 {
      WordingLength(fragments[1]);
      assert texts[1..][0] <= Join(texts[1..], ". ");
    }
  }

  /** `generateReason(offerName, customerData)`: the fired fragments joined
      with ". ". It is never empty and never the generic sentence, it
      starts with the highest-priority fragment that fired, and splitting it
      at ". " gives back every fired sentence, in rule order. */
  function GenerateReason(offer: string, data: Record): (reason: string)
    ensures reason != ""
    ensures reason != Wording(Fallback)
    ensures Wording(Fragments(offer, data)[0]) <= reason
    ensures SplitOn(reason, ". ") == Texts(Fragments(offer, data))
  {
    var fragments := Fragments(offer, data);
    var texts := Texts(fragments);
    JoinedIsNotGeneric(fragments);
    forall k | 0 <= k < |texts|
      ensures ". "[0] !in texts[k]
    {
      assert fragments[k] in fragments;
      NoFullStop(fragments[k]);
    }
    SplitJoinParts(texts, ". ");
    Join(texts, ". ")
  }
}

=== FILE: records.dfy ===
/**
 Required-key checking over a JSON record, shared by the ML gateway's
 `validateCustomerData` and the ML controller's input check: both filter a
 declared key list by `key in record`.
 */
module Records {
  import opened Js

  /** `a` can be obtained from `b` by deleting elements. */
  predicate IsSubsequence<T(==)>(a: seq<T>, b: seq<T>)
    decreases |b|
  {
    if |a| == 0 then true
    else if |b| == 0 then false
    else if a[0] == b[0] then IsSubsequence(a[1..], b[1..])
    else IsSubsequence(a, b[1..])
  }

  ghost predicate Distinct<T>(s: seq<T>) {
    forall i, j :: 0 <= i < j < |s| ==> s[i] != s[j]
  }

  /** The declared keys the record lacks (an `in` test per key),
      in declared order. A key that is present counts whatever its value,
      so `0`, `false`, `""` and `null` all pass. */
  function MissingKeys(keys: seq<string>, record: Record): (r: seq<string>)
    ensures forall k :: k in r <==> k in keys && k !in record
    ensures IsSubsequence(r, keys)
    ensures |r| <= |keys|
  {
    if |keys| == 0 then []
    else if keys[0] in record then MissingKeys(keys[1..], record)
    else [keys[0]] + MissingKeys(keys[1..], record)
  }

  lemma {:induction false} SubsequenceMembers<T>(a: seq<T>, b: seq<T>)
    requires IsSubsequence(a, b)
    ensures forall x :: x in a ==> x in b
    decreases |b|
  {
    if |a| == 0 {
    } else if a[0] == b[0] {
      SubsequenceMembers(a[1..], b[1..]);
      assert a == [a[0]] + a[1..];
    } else {
      SubsequenceMembers(a, b[1..]);
    }
  }

  lemma {:induction false} SubsequenceDistinct<T>(a: seq<T>, b: seq<T>)
    requires IsSubsequence(a, b) && Distinct(b)
    ensures Distinct(a)
    decreases |b|
  {
    if |a| == 0 {
    } else if a[0] == b[0] {
      SubsequenceDistinct(a[1..], b[1..]);
      SubsequenceMembers(a[1..], b[1..]);
      assert b[0] !in b[1..];
      forall j | 0 < j < |a|
        ensures a[0] != a[j]
      {
        assert a[j] == a[1..][j - 1];
      }
    } else {
      SubsequenceDistinct(a, b[1..]);
    }
  }

  /** Over a duplicate-free key list, a subsequence is fixed by its members:
      two subsequences with the same members are equal. So the membership
      and order clauses of `MissingKeys` determine its result. */
  lemma {:induction false} SubsequenceDeterminedByMembers<T>(a: seq<T>, c: seq<T>, b: seq<T>)
    requires IsSubsequence(a, b) && IsSubsequence(c, b) && Distinct(b)
    requires forall x :: x in a <==> x in c
    ensures a == c
    decreases |b|
  {
    if |b| > 0 {
      var tail := b[1..];
      assert Distinct(tail);
      if b[0] in a {
        HeadIsFirst(a, b);
        HeadIsFirst(c, b);
        SubsequenceDistinct(a, b);
        SubsequenceDistinct(c, b);
        TailMembers(a);
        TailMembers(c);
        SubsequenceDeterminedByMembers(a[1..], c[1..], tail);
        assert a == [a[0]] + a[1..];
        assert c == [c[0]] + c[1..];
      } else {
        SkipHead(a, b);
        SkipHead(c, b);
        SubsequenceDeterminedByMembers(a, c, tail);
      }
    }
  }

  /** A non-empty subsequence containing `b[0]` starts with it, and its rest
      is a subsequence of `b[1..]`. */
  lemma HeadIsFirst<T>(a: seq<T>, b: seq<T>)
    requires IsSubsequence(a, b) && Distinct(b) && |b| > 0 && b[0] in a
    ensures |a| > 0 && a[0] == b[0] && IsSubsequence(a[1..], b[1..])
  {
    if a[0] != b[0] {
      SubsequenceMembers(a, b[1..]);
    }
  }

  /** In a duplicate-free sequence the tail holds every member but the head. */
  lemma TailMembers<T>(a: seq<T>)
    requires Distinct(a) && |a| > 0
    ensures forall x :: x in a[1..] <==> x in a && x != a[0]
  {
    assert a == [a[0]] + a[1..];
    forall x | x in a[1..]
      ensures x != a[0]
    {
      var j :| 0 <= j < |a[1..]| && a[1..][j] == x;
      assert a[j + 1] == x;
    }
  }

  /** A subsequence that avoids `b[0]` is a subsequence of `b[1..]`. */
  lemma SkipHead<T>(a: seq<T>, b: seq<T>)
    requires IsSubsequence(a, b) && |b| > 0 && b[0] !in a
    ensures IsSubsequence(a, b[1..])
  {
    if |a| > 0 {
      assert a[0] in a;
    }
  }
}

=== FILE: text.dfy ===
/**
 String helpers shared by the model: ASCII case mapping (the JavaScript
 `toLowerCase` / `toUpperCase` restricted to ASCII), substring search
 (`includes`), `join`, and `split`, both on a single space (`SplitSpaces`) and on any
 non-empty separator (`SplitOn`).
 */
module Text {

  function LowerChar(c: char): char {
    if 'A' <= c <= 'Z' then (c as int + 32) as char else c
  }

  function UpperChar(c: char): char {
    if 'a' <= c <= 'z' then (c as int - 32) as char else c
  }

  /** `s.toLowerCase()` over ASCII letters. */
  function Lower(s: string): (r: string)
    ensures |r| == |s|
    ensures forall i :: 0 <= i < |s| ==> r[i] == LowerChar(s[i])
  {
    seq(|s|, i requires 0 <= i < |s| => LowerChar(s[i]))
  }

  /** `s.toUpperCase()` over ASCII letters. */
  function Upper(s: string): (r: string)
    ensures |r| == |s|
    ensures forall i :: 0 <= i < |s| ==> r[i] == UpperChar(s[i])
  {
    seq(|s|, i requires 0 <= i < |s| => UpperChar(s[i]))
  }

  lemma LowerIdempotent(s: string)
    ensures Lower(Lower(s)) == Lower(s)
  {
    assert forall i :: 0 <= i < |s| ==> LowerChar(LowerChar(s[i])) == LowerChar(s[i]);
  }

  /** `Lower(s) == t` follows from a character-by-character comparison
      (used to lower-case string literals). */
  lemma LowerPointwise(s: string, t: string)
    requires |s| == |t| && forall i :: 0 <= i < |s| ==> LowerChar(s[i]) == t[i]
    ensures Lower(s) == t
  {
  }

  /** `t` occurs in `s` starting at index `i`. */
  predicate OccursAt(s: string, t: string, i: int) {
    0 <= i <= |s| - |t| && s[i..i + |t|] == t
  }

  /** `s.includes(t)`: some window of `s` spells `t`. */
  predicate Contains(s: string, t: string) {
    exists i | 0 <= i <= |s| - |t| :: OccursAt(s, t, i)
  }

  /** A pattern with a character that `s` lacks does not occur in `s`. */
  lemma NotContained(s: string, t: string, j: int)
    requires 0 <= j < |t| && t[j] !in s
    ensures !Contains(s, t)
  {
  }

  /** `parts.join(sep)`. */
  function Join(parts: seq<string>, sep: string): (r: string)
    ensures |parts| == 0 ==> r == ""
    ensures |parts| == 1 ==> r == parts[0]
    ensures |parts| > 0 ==> parts[0] <= r
  {
    if |parts| == 0 then ""
    else if |parts| == 1 then parts[0]
    else parts[0] + sep + Join(parts[1..], sep)
  }

  /** `s.split(sep)` for a non-empty separator: scanning left to right,
      each occurrence of `sep` ends the current piece. */
  function SplitOn(s: string, sep: string): (r: seq<string>)
    requires |sep| > 0
    ensures |r| >= 1
  {
    if |s| == 0 then [""]
    else if sep <= s then [""] + SplitOn(s[|sep|..], sep)
    else
      var rest := SplitOn(s[1..], sep);
      [[s[0]] + rest[0]] + rest[1..]
  }

  /** A prefix without the separator's first character is glued to the
      first piece of what follows it. */
  lemma {:induction false} SplitOnPrefix(p: string, t: string, sep: string)
    requires |sep| > 0 && sep[0] !in p
    ensures SplitOn(p + t, sep) == [p + SplitOn(t, sep)[0]] + SplitOn(t, sep)[1..]
  {
    if |p| > 0 {
      var s := p + t;
      assert s[0] == p[0] && s[1..] == p[1..] + t;
      assert s[0] != sep[0];
      SplitOnPrefix(p[1..], t, sep);
      assert [s[0]] + (p[1..] + SplitOn(t, sep)[0]) == p + SplitOn(t, sep)[0];
    } else {
      var r := SplitOn(t, sep);
      assert p + t == t && p + r[0] == r[0];
      assert r == [r[0]] + r[1..];
    }
  }

  /** Splitting a join gives back its parts, provided no part contains the
      separator's first character. */
  lemma {:induction false} SplitJoinParts(parts: seq<string>, sep: string)
    requires |parts| >= 1 && |sep| > 0
    requires forall k :: 0 <= k < |parts| ==> sep[0] !in parts[k]
    ensures SplitOn(Join(parts, sep), sep) == parts
  {
    if |parts| == 1 {
      SplitOnPrefix(parts[0], "", sep);
      assert parts[0] + "" == parts[0];
    } else {
      var tail := Join(parts[1..], sep);
      SplitJoinParts(parts[1..], sep);
      assert Join(parts, sep) == parts[0] + (sep + tail);
      SplitOnPrefix(parts[0], sep + tail, sep);
      assert sep <= sep + tail && (sep + tail)[|sep|..] == tail;
      assert SplitOn(sep + tail, sep) == [""] + parts[1..];
      assert parts[0] + "" == parts[0];
      assert parts == [parts[0]] + parts[1..];
    }
  }

  /** `s.split(' ')`: the pieces between single spaces; empty pieces are kept,
      and the empty string splits into one empty piece. */
  function SplitSpaces(s: string): (r: seq<string>)
    ensures |r| >= 1
    ensures forall k :: 0 <= k < |r| ==> ' ' !in r[k]
  {
    if |s| == 0 then [""]
    else if s[0] == ' ' then [""] + SplitSpaces(s[1..])
    else
      var rest := SplitSpaces(s[1..]);
      [[s[0]] + rest[0]] + rest[1..]
  }

  /** Splitting on spaces and joining the pieces back with a space gives the
      original string: no character is lost or invented by the split. */
  lemma {:induction false} SplitJoinRoundTrip(s: string)
    ensures Join(SplitSpaces(s), " ") == s
  {
    if |s| == 0 {
    } else if s[0] == ' ' {
      SplitJoinRoundTrip(s[1..]);
      assert s == " " + s[1..];
    } else {
      var rest := SplitSpaces(s[1..]);
      SplitJoinRoundTrip(s[1..]);
      if |rest| == 1 {
        assert s == [s[0]] + s[1..];
      } else {
        assert ([[s[0]] + rest[0]] + rest[1..])[1..] == rest[1..];
        assert Join(rest, " ") == rest[0] + " " + Join(rest[1..], " ");
        assert s == [s[0]] + s[1..];
      }
    }
  }
}

=== FILE: user_controller.dfy ===
/**
 The main backend's profile handlers: the spend-based loyalty badge and
 the defaulted balance fields of `getUserProfile`, and the email-conflict
 guard in front of `updateProfile`'s write.
 */
module UserProfile {
  import opened Js
  import Db

  datatype Badge = Bronze | Silver | Gold

  /** The badges' order, Bronze lowest. */
  function BadgeRank(b: Badge): nat {
    match b
    case Bronze => 0
    case Silver => 1
    case Gold => 2
  }

  const GoldThreshold: real := 150000.0
  const SilverThreshold: real := 50000.0

  /** The badge for a monthly spend; `None` stands for a missing behaviour
      row or a null column, which compare false against either threshold. */
  function BadgeFor(spend: Option<real>): (b: Badge)
    ensures b == Gold <==> spend.Some? && spend.value > GoldThreshold
    ensures b == Silver <==> spend.Some? && SilverThreshold < spend.value <= GoldThreshold
    ensures b == Bronze <==> spend.None? || spend.value <= SilverThreshold
  {
    if spend.Some? && spend.value > GoldThreshold then Gold
    else if spend.Some? && spend.value > SilverThreshold then Silver
    else Bronze
  }

  /** A higher spend never earns a lower badge. */
  lemma BadgeMonotone(x: real, y: real)
    requires x <= y
    ensures BadgeRank(BadgeFor(Some(x))) <= BadgeRank(BadgeFor(Some(y)))
  {
  }

  /** The boundaries: exactly 150000 is still Silver, exactly 50000 is
      still Bronze, and no behaviour at all is Bronze. */
  lemma BadgeBoundaries()
    ensures BadgeFor(Some(GoldThreshold)) == Silver
    ensures BadgeFor(Some(SilverThreshold)) == Bronze
    ensures BadgeFor(None) == Bronze
  {
  }

  /** `x || 0` on a numeric column: null and 0 both read as 0. */
  function OrZero(x: Option<real>): (r: real)
    ensures x.None? ==> r == 0.0
    ensures x.Some? ==> r == x.value
  {
    if x.Some? && x.value != 0.0 then x.value else 0.0
  }

  /** The columns of a behaviour row the profile reads. */
  datatype Behavior = Behavior(balance: Option<real>, dataRemainingGb: Option<real>, monthlySpend: Option<real>)

  /** `user.behavior || {}`: every column undefined. */
  const NoBehavior := Behavior(None, None, None)

  datatype ProfileView = ProfileView(
    username: string, email: string, role: string,
    balance: real, dataRemainingGb: real, badge: Badge, monthlySpend: Option<real>)

  datatype ProfileReply = UserNotFound | Profile(view: ProfileView)

  /** `getUserProfile` for the signed-in user's row and its behaviour row. */
  function GetUserProfile(user: Option<Db.User>, behavior: Option<Behavior>): (reply: ProfileReply)
    ensures reply.UserNotFound? <==> user.None?
    ensures reply.Profile? ==>
      var b := if behavior.Some? then behavior.value else NoBehavior;
      && reply.view.username == user.value.username
      && reply.view.email == user.value.email
      && reply.view.role == user.value.role
      && reply.view.badge == BadgeFor(b.monthlySpend)
      && reply.view.monthlySpend == b.monthlySpend
      && reply.view.balance == OrZero(b.balance)
      && reply.view.dataRemainingGb == OrZero(b.dataRemainingGb)
  {
    if user.None? then UserNotFound
    else
      var b := if behavior.Some? then behavior.value else NoBehavior;
      Profile(ProfileView(user.value.username, user.value.email, user.value.role,
                          OrZero(b.balance), OrZero(b.dataRemainingGb),
                          BadgeFor(b.monthlySpend), b.monthlySpend))
  }

  /** A user without a behaviour row sees zero balance and quota and the
      Bronze badge. */
  lemma NoBehaviorDefaults(user: Db.User)
    ensures GetUserProfile(Some(user), None) ==
      Profile(ProfileView(user.username, user.email, user.role, 0.0, 0.0, Bronze, None))
  {
  }

  // ---------------------------------------------------------------------
  // updateProfile

  /** The ORM's single-row lookup by email: the first row holding it. */
  function FindByEmail(users: seq<Db.User>, email: string): (r: Option<Db.User>)
    ensures r.None? <==> forall i :: 0 <= i < |users| ==> users[i].email != email
    ensures r.Some? ==> exists i :: 0 <= i < |users| && users[i] == r.value && r.value.email == email &&
                          forall j :: 0 <= j < i ==> users[j].email != email
  {
    if |users| == 0 then None
    else if users[0].email == email then Some(users[0])
    else
      var r := FindByEmail(users[1..], email);
      if r.Some? then
        ghost var i :| 0 <= i < |users[1..]| && users[1..][i] == r.value && r.value.email == email &&
                       forall j :: 0 <= j < i ==> users[1..][j].email != email;
        assert users[i + 1] == r.value;
        r
      else r
  }

  datatype UpdateReply = EmailTaken | Updated(users: seq<Db.User>)

  /** The ORM update of the signed-in row: undefined fields are dropped from
      the update, so only supplied fields change. */
  function Apply(u: Db.User, userId: int, username: Option<string>, email: Option<string>): Db.User {
    if u.id != userId then u
    else u.(username := if username.Some? then username.value else u.username,
            email := if email.Some? then email.value else u.email)
  }

  /** `updateProfile`: a truthy email held by a row with another id is
      refused; otherwise the signed-in user's row gets the supplied fields. */
  function UpdateProfile(users: seq<Db.User>, userId: int, username: Option<string>, email: Option<string>)
    : (reply: UpdateReply)
    ensures reply.EmailTaken? <==>
      TruthyString(email) && FindByEmail(users, email.value).Some? &&
      FindByEmail(users, email.value).value.id != userId
    ensures reply.Updated? ==> |reply.users| == |users|
    ensures reply.Updated? ==> forall i :: 0 <= i < |users| ==>
      && reply.users[i].id == users[i].id
      && reply.users[i].role == users[i].role
      && (users[i].id != userId ==> reply.users[i] == users[i])
      && (users[i].id == userId && username.Some? ==> reply.users[i].username == username.value)
      && (users[i].id == userId && username.None? ==> reply.users[i].username == users[i].username)
      && (users[i].id == userId && email.Some? ==> reply.users[i].email == email.value)
      && (users[i].id == userId && email.None? ==> reply.users[i].email == users[i].email)
  {
    if TruthyString(email) && FindByEmail(users, email.value).Some? &&
       FindByEmail(users, email.value).value.id != userId
    then EmailTaken
    else Updated(seq(|users|, i requires 0 <= i < |users| => Apply(users[i], userId, username, email)))
  }

  /** With emails unique, the guard refuses exactly when some other user
      holds the supplied email; re-submitting one's own email is accepted. */
  lemma GuardMeansAnotherHolder(users: seq<Db.User>, userId: int, username: Option<string>, email: Option<string>)
    requires Db.UniqueEmails(users)
    requires TruthyString(email)
    ensures UpdateProfile(users, userId, username, email).EmailTaken? <==>
      exists i :: 0 <= i < |users| && users[i].email == email.value && users[i].id != userId
  {
    var found := FindByEmail(users, email.value);
    if found.Some? {
      var i :| 0 <= i < |users| && users[i] == found.value && found.value.email == email.value &&
               forall j :: 0 <= j < i ==> users[j].email != email.value;
      forall k | 0 <= k < |users| && users[k].email == email.value
        ensures k == i
      {
      }
    }
  }

  /** An accepted update with a truthy email keeps ids and emails unique. */
  lemma UpdateKeepsEmailsUnique(users: seq<Db.User>, userId: int, username: Option<string>, email: Option<string>)
    requires Db.UniqueUserIds(users) && Db.UniqueEmails(users)
    requires email.None? || TruthyString(email)
    requires UpdateProfile(users, userId, username, email).Updated?
    ensures Db.UniqueUserIds(UpdateProfile(users, userId, username, email).users)
    ensures Db.UniqueEmails(UpdateProfile(users, userId, username, email).users)
  {
    var after := UpdateProfile(users, userId, username, email).users;
    if email.Some? {
      GuardMeansAnotherHolder(users, userId, username, email);
      forall i, j | 0 <= i < j < |after|
        ensures after[i].email != after[j].email
      {
        if users[i].id == userId {
          assert users[j].id != userId;
          assert after[j].email == users[j].email;
        } else if users[j].id == userId {
          assert after[i].email == users[i].email;
        } else {
          assert after[i] == users[i] && after[j] == users[j];
        }
      }
    }
  }

  /** The empty email slips past the guard (it is falsy) and is written, so
      two users can end up sharing it. */
  lemma EmptyEmailSkipsGuard()
    ensures var users := [Db.User(1, "a", "", "user"), Db.User(2, "b", "b@x", "user")];
      && Db.UniqueEmails(users)
      && UpdateProfile(users, 2, None, Some("")).Updated?
      && !Db.UniqueEmails(UpdateProfile(users, 2, None, Some("")).users)
  {
    var users := [Db.User(1, "a", "", "user"), Db.User(2, "b", "b@x", "user")];
    var after := UpdateProfile(users, 2, None, Some("")).users;
    assert after[0].email == "" && after[1].email == "";
  }
}
